=== FILE: README.md ===
# Clippy speech-bubble images, modelled in Dafny

Clippy is a small web service that renders the Office assistant with a speech
bubble. A request to `/r?text=…&options=…&transparent=true` returns a PNG with
three parts: the sanitized message, wrapped to fit; an optional list of
options, each drawn with a round marker; and the mascot in the bottom-right
corner. A browser editor builds those addresses. A publish endpoint checks
submitted messages before storing them.

This project models the core of the service and proves properties of the
model:

- **Sanitizer** (`sanitize.dfy`): the three passes of `sanitizeText`, and a
  character-by-character reference definition they are proved equal to.
- **Wrap** (`wrap.dfy`): `wrapText`. It splits the text into paragraphs,
  keeps a paragraph whole when it fits, and otherwise wraps it greedily at
  spaces.
- **Layout** (`layout.dfy`): `getMaxTextWidth` and `calculateBubbleMetrics`,
  which give the bubble's width and height and the wrapped lines.
- **Render** (`render.dfy`): `drawClippyMessage`. It produces the bubble
  outline as a sequence of path commands, the text and marker commands
  ("ink") in painting order, and the returned footprint.
- **Handler** (`handler.dfy`): the `GET` handler of `routes/r.ts`. It reads
  the query, sizes the canvas, places the mascot, and returns the error image
  when decoding fails.
- **Publish** (`publish.dfy`): the validator of `routes/api/publish.ts`.
- **Editor** (`editor.dfy`): the option-list handlers of the editor island and
  its preview address.
- `strings.dfy`, `measure.dfy` and `optional.dfy` hold the JavaScript string
  primitives (`split`, `join`, `trim`), the text measurer and an option type.

Text measurement (`ctx.measureText(s).width`) is a parameter of type
`Measure.Measurer`: any deterministic, non-negative width function. Whether
drawing a given line throws is a parameter `fails: string -> bool`.
`decodeURIComponent` is a parameter `Handler.Decoder` that returns `None`
where it throws. `encodeURIComponent` is a parameter `Editor.Encoder` that
never yields `&`. Numbers are exact reals, and a count times a length is
written as repeated addition (`Measure.Times`).

Some behaviour of the code is easy to misread; the model follows the code:

- Curly quotes are deleted, not converted. The comment at `routes/r.ts`
  line 24 and the replacement table at lines 25-33 map them to straight
  quotes, but the character class that consults the table (line 39) holds the
  straight quotes instead, so curly quotes reach the final filter and are
  removed. A message with a curly quote therefore does not render like the
  same message with straight quotes (`Sanitizer.SanitizeDropsCurlyQuotes`).
- A whitespace-only paragraph counts as empty: `wrapText` and the drawing
  loop test `trim() === ""`. The drawing test is modelled as
  `Render.Drawable`, which `Render.DrawableIffTrimmed` proves equal to the
  trim test.
- The greedy loop emits its last line only when that line is not empty.
- The canvas height floor `max(h + 240, 240)` never applies, because the
  bubble is always at least 40 high (`Handler.CanvasSize`). A one-line
  message therefore gets a canvas taller than the mascot floor.

## Model

| member | source | states |
|---|---|---|
| Sanitizer.StripInvisible | routes/r.ts:35-36 | no zero-width space, non-joiner, joiner or byte order mark survives the first pass |
| Sanitizer.KeepPrintable | routes/r.ts:41-43 | the third pass leaves only 0x20-0x7E and newline, and never lengthens its input |
| Sanitizer.Sanitize | routes/r.ts:23-44 | every character of a sanitized string is printable ASCII or a newline |
| Sanitizer.VisibleCharImage | routes/r.ts:38-43 | after the replacement and keep passes, a character becomes itself if printable, `-` for a dash, `...` for the ellipsis, and nothing otherwise |
| Sanitizer.SanitizeIsCharwise | routes/r.ts:23-44 | the three passes equal the per-character reference `Normalize`: each input character contributes its own image, in order |
| Sanitizer.SanitizeAppend | routes/r.ts:23-44 | sanitizing distributes over concatenation, so no character is reordered or merged |
| Sanitizer.SanitizeKeepsPrintable | routes/r.ts:41-43 | a string of printable ASCII and newlines is left unchanged |
| Sanitizer.SanitizeIdempotent | routes/r.ts:23-44 | sanitizing twice equals sanitizing once, which makes the repeated sanitizing in the handler, the drawing and the layout harmless |
| Sanitizer.SanitizeReplacedChars | routes/r.ts:25-39 | en and em dash become `-`, the ellipsis becomes `...`, and straight quotes are kept |
| Sanitizer.SanitizeDropsCurlyQuotes | routes/r.ts:25-39 | the four curly quotes are deleted even though the table lists them, because the class at line 39 does not match them |
| Sanitizer.SanitizeDropsInvisible | routes/r.ts:35-36 | U+200B, U+200C, U+200D and U+FEFF are deleted |
| Strings.Split | routes/r.ts:75 | `split` on one character yields at least one piece, and no piece contains the separator |
| Strings.JoinSplit | routes/r.ts:93 | joining the pieces of a split gives back the string |
| Strings.SplitJoin | routes/r.ts:348 | splitting a join of separator-free pieces gives back the pieces |
| Strings.SplitCount | routes/r.ts:348 | a split yields one piece more than there are separators |
| Strings.Join | islands/ClippyEditor.tsx:31 | `join` only computes; `Strings.JoinCount`, `Strings.JoinSplit` and `Strings.SplitJoin` state that it puts one separator in each gap and is undone by `split` |
| Strings.JoinCount | islands/ClippyEditor.tsx:31 | joining n pieces adds exactly n - 1 separators to those the pieces already hold |
| Strings.TrimStart | islands/ClippyEditor.tsx:48-49 | the result is a suffix of the input, everything dropped is whitespace, and it does not start with whitespace |
| Strings.TrimEnd | islands/ClippyEditor.tsx:48-49 | the result is a prefix of the input, everything dropped is whitespace, and it does not end with whitespace |
| Strings.Trim | islands/ClippyEditor.tsx:48-49 | `trim()` is `TrimEnd` after `TrimStart`, so it keeps one slice of the input, drops only whitespace around it, and the result neither starts nor ends with whitespace |
| Strings.TrimEmptyIffBlank | routes/r.ts:81 | `trim()` is empty exactly when every character is whitespace |
| Strings.TrimIdempotent | islands/ClippyEditor.tsx:48-49 | trimming a trimmed string changes nothing |
| Measure.TimesIsProduct | routes/r.ts:136 | the repeated addition used for `lines.length * lineHeight` equals the product |
| Wrap.Paragraphs | routes/r.ts:72-75 | the sanitized text has at least one paragraph and none contains a newline |
| Wrap.GreedyLines | routes/r.ts:93-108 | the word loop emits at least one line when it starts from a non-empty line or has words left |
| Wrap.GreedyWordOrFits | routes/r.ts:96-105 | every emitted line is a single word or measures strictly less than the limit |
| Wrap.GreedyWordRuns | routes/r.ts:93-108 | words are never split: every emitted line is a run of consecutive words rejoined with single spaces |
| Wrap.GreedyLossless | routes/r.ts:93-108 | the emitted lines rejoined with spaces give back the paragraph, except for a trailing empty word that the final `if (currentLine)` drops |
| Wrap.WrapParagraph | routes/r.ts:79-109 | every paragraph contributes at least one line; the kinds of line are stated by `Wrap.WrapBlankParagraph`, `Wrap.WrapFittingParagraph`, `Wrap.WrapParagraphLineKinds` and `Wrap.WrapParagraphKeepsWords` |
| Wrap.WrapBlankParagraph | routes/r.ts:80-84 | a whitespace-only paragraph becomes exactly one empty line |
| Wrap.WrapFittingParagraph | routes/r.ts:86-90 | a paragraph that fits becomes one line: itself, or the empty line when blank |
| Wrap.WrapParagraphLineKinds | routes/r.ts:79-109 | each line of a paragraph is empty, the whole fitting paragraph, shorter than the limit, or one of its words |
| Wrap.WrapParagraphKeepsWords | routes/r.ts:92-108 | a wrapped paragraph's lines are runs of its words and rejoin to the paragraph, up to a dropped trailing empty word |
| Wrap.WrapParagraphsAppend | routes/r.ts:79-109 | paragraphs are wrapped independently: the lines of a concatenation are the concatenated lines |
| Wrap.WrapParagraphsCount | routes/r.ts:79-109 | there are at least as many lines as paragraphs |
| Wrap.WrapParagraphsLineKinds | routes/r.ts:79-109 | every line of the text is a legitimate line of one of its paragraphs |
| Wrap.WrapText | routes/r.ts:65-112 | `wrapText` yields at least one line per paragraph of the sanitized text, so never no lines; `Wrap.WrapParagraphsLineKinds` and `Wrap.WrapParagraphsNoWrap` state which lines |
| Wrap.WrapParagraphsNoWrap | routes/r.ts:86-90 | when every paragraph fits, there is exactly one unwrapped line per paragraph, in order |
| Layout.WidestParagraph | routes/r.ts:52-53 | the spread `Math.max` is an upper bound of the paragraph widths and equals one of them |
| Layout.WidenForOptions | routes/r.ts:56-60 | the option loop never lowers the maximum, bounds every option width plus 40, and ends at one of them or where it started |
| Layout.GetMaxTextWidth | routes/r.ts:46-63 | the widest content bounds every paragraph and every option plus its marker allowance, and is attained by one of them |
| Layout.SanitizeAll | routes/r.ts:124 | `options.map(sanitizeText)` keeps the count and sanitizes each option in place |
| Layout.CalculateBubbleMetrics | routes/r.ts:114-170 | there is one wrapped block per option |
| Layout.MetricsBlocks | routes/r.ts:131-150 | the message is wrapped at the content width less both paddings, options 30 narrower; every option has a line, and at least one line per paragraph |
| Layout.SumHeightsIsLines | routes/r.ts:153-157 | the `reduce` over block heights equals the total option line count times the line height |
| Layout.HeightClosedForm | routes/r.ts:153-162 | the bubble height in closed form: one line height per line, half a padding between options, and three paddings with options or two without |
| Layout.MetricsHeight | routes/r.ts:131-162 | the same closed form for the metrics `calculateBubbleMetrics` returns, and the options height on its own |
| Layout.MetricsWidth | routes/r.ts:126-163 | the bubble width is capped by the canvas less the mascot reserve, bounds every paragraph and option width plus paddings, and equals the cap or one of them |
| Layout.MetricsWidthMonotone | routes/r.ts:131 | a wider canvas never gives a narrower bubble |
| Layout.MetricsNonNegative | routes/r.ts:114-170 | the bubble is at least two paddings wide and high, and the options height is never negative |
| Layout.MetricsMinimumWidth | routes/r.ts:127-163 | when the canvas leaves two paddings beside the mascot, the bubble is at least four paddings wide |
| Layout.NoWrapWhenUncapped | routes/r.ts:86-150 | when the content fits beside the mascot, each paragraph is one unwrapped line and each newline-free option one line |
| Layout.OneLineFits | routes/r.ts:71-90 | a sanitized newline-free text that fits is a single unwrapped line |
| Render.DrawableIffTrimmed | routes/r.ts:265 | a message line is drawn exactly when its `trim()` is not empty |
| Render.DrawClippyMessage | routes/r.ts:172-318 | the returned width is at least 250 and at least the bubble width plus both offsets, and equals one of them; the height is the bubble height |
| Render.BubblePath | routes/r.ts:210-247 | the outline is one closed path: one move, then lines and arcs only, the last arc ending where the move started, then the close |
| Render.PathInsideBox | routes/r.ts:211-247 | the outline starts on the top edge just right of the top-left corner and stays within the bubble box extended by the 30-unit tail, whose tip is its only point below the bottom edge |
| Render.DrawMessageLines | routes/r.ts:257-274 | after the message lines the cursor has moved one line height per line, and one text command was painted per drawable line; positions are stated by `Render.MessageLineAt` and `Render.MessageInkFromLines` |
| Render.MessageLineAt | routes/r.ts:262-274 | drawable message line k is painted (or replaced by `?` when it fails) at the text indent, k + 1 line heights below the start |
| Render.MessageInkFromLines | routes/r.ts:262-274 | every message command comes from a drawable line, at that line's position |
| Render.OptionLinesAt | routes/r.ts:295-303 | every line of an option is painted, blank or not, line i at the option indent i line heights below the first baseline, and the cursor moves one line height per line |
| Render.DrawOptions | routes/r.ts:280-306 | the options loop only computes; `Render.OptionsCursor`, `Render.OptionMarkerAt` and `Render.OptionLineAt` state what it paints and where |
| Render.OptionsCursor | routes/r.ts:280-306 | after the options, the cursor has moved one line height per option line plus half a padding per option |
| Render.OptionMarkerAt | routes/r.ts:281-289 | option j's marker of radius 8 is centred 10 right of the text indent and 10 above its first baseline |
| Render.OptionLineAt | routes/r.ts:280-306 | the command at option j's offset is its marker, followed by its lines, at the baselines the cursor reaches |
| Render.Paint | routes/r.ts:255-307 | the painting holds one command per drawable message line, plus with options one marker per option and one command per option line; `Render.PaintMessageLineAt`, `Render.PaintMessageInk` and `Render.PaintOptionAt` state their positions |
| Render.PaintMessageLineAt | routes/r.ts:255-274 | message line k's baseline is 12 + (k + 1) line heights below the bubble top, 20 right of its left edge |
| Render.PaintOptionAt | routes/r.ts:276-307 | option j starts two paddings below the last message baseline, plus one line per earlier option line and half a padding per earlier option |
| Render.DrawWithoutOptions | routes/r.ts:262-277 | without options, `drawClippyMessage` paints only message text at the text indent, one per line that is not blank, and no marker |
| Render.DrawOptionMarker | routes/r.ts:276-289 | with options, one marker per option and one text per option line follow the message lines, and option j's marker of radius 8 is centred beside its block's first baseline, after the earlier options' commands |
| Render.PaintInsideBubble | routes/r.ts:255-307 | every painted baseline and every whole marker disc lies strictly between the bubble's top and bottom edges, given the height `calculateBubbleMetrics` computes; message text starts at x = 40, option text at 70, and markers are centred at 50 |
| Render.DrawInsideBubble | routes/r.ts:172-318 | every baseline `drawClippyMessage` paints and every whole marker disc lies strictly between the top and bottom edges of the bubble it outlines, and every command starts in its fixed column |
| Handler.ParseOptions | routes/r.ts:347-350 | an absent or empty options parameter gives no options; otherwise the result fails exactly when decoding throws, and every option is printable |
| Handler.ParseRequest | routes/r.ts:343-350 | the request fails exactly when a decoding throws; transparency is set exactly by `transparent=true`; the text is printable |
| Handler.Compose | routes/r.ts:356-381 | the canvas is white unless transparency was asked for, at least 450 wide and 240 high, and holds the drawn bubble |
| Handler.Handle | routes/r.ts:322-400 | the error image is returned exactly when the query cannot be read |
| Handler.DefaultGreeting | routes/r.ts:344-350 | without a text parameter the greeting "Hello! I'm Clippy!" is shown unchanged, with no options |
| Handler.OptionsArePieces | routes/r.ts:347-350 | there is one option per `\|`-separated piece of the decoded parameter, each sanitized |
| Handler.OptionsRoundTrip | routes/r.ts:347-350 | sanitized, bar-free options joined with `\|` read back as the same options |
| Handler.LoneEmptyOptionIsLost | routes/r.ts:347-350 | a single empty option joins to the empty string, which reads as no options |
| Handler.CanvasSize | routes/r.ts:358-362 | the canvas is the footprint plus 200 wide and exactly the bubble height plus 240 high: the floor never applies |
| Handler.MascotInCorner | routes/r.ts:381 | the 200 by 200 mascot lies inside the canvas, flush with its right and bottom edges |
| Handler.BubbleLeftOfMascot | routes/r.ts:358-381 | the bubble's right edge is at least 20 left of the mascot |
| Handler.OutlineOnCanvas | routes/r.ts:358-368 | every point of the bubble outline, tail tip included, lies on the canvas |
| Handler.InkOnCanvas | routes/r.ts:358-378 | every text starts, and every whole marker disc lies, on the canvas and left of the mascot; every baseline and marker lies below the bubble's top edge and more than 20 above the mascot's top, so no ink reaches down to the mascot |
| Handler.ErrorImageFixed | routes/r.ts:391-400 | a text that cannot be decoded yields the 400 by 300 image reading "Error generating image" at (50, 150) |
| Publish.Member | routes/api/publish.ts:7 | destructuring reads a field only from an object that has it |
| Publish.StringItems | routes/api/publish.ts:11-14 | the published options are the array's strings, one for one |
| Publish.Validate | routes/api/publish.ts:7-15 | a refusal carries one of the two messages, and a null body throws before any check |
| Publish.Status | routes/api/publish.ts:8-15 | 200 exactly on publication, 400 exactly on a refusal |
| Publish.PublishedIff | routes/api/publish.ts:7-15 | a body is published exactly when it is an object with a non-empty string `text` and an array of strings `options`, and those are what is stored |
| Publish.FalsyIsMissing | routes/api/publish.ts:7-10 | any non-null body whose `text` or `options` is absent, `null`, `false`, `0` or `""` is refused with "Missing required fields" |
| Publish.MissingBeforeInvalid | routes/api/publish.ts:8-13 | the presence check runs first: a present but falsy `text` is reported missing even when `options` has the wrong type |
| Publish.WrongTypeIsInvalid | routes/api/publish.ts:11-12 | once `text` and `options` are both truthy, a `text` that is not a string or an `options` that is not an array, or both, is refused as invalid input rather than missing |
| Publish.NonStringOptionIsInvalid | routes/api/publish.ts:11-12 | one non-string item anywhere in the options makes the input invalid |
| Publish.EmptyOptionsPublished | routes/api/publish.ts:8-14 | an empty options array is truthy and publishes no options |
| Publish.NonObjectMissing | routes/api/publish.ts:7-10 | any non-null body that is not an object lacks both fields |
| Publish.OtherFieldsIgnored | routes/api/publish.ts:7 | fields other than `text` and `options` do not affect the outcome |
| Editor.AddOption | islands/ClippyEditor.tsx:47-52 | a non-blank draft is appended trimmed and cleared; a blank draft changes nothing; text, edit state and flag are untouched |
| Editor.Without | islands/ClippyEditor.tsx:55 | the filter removes one entry exactly when the index is in range |
| Editor.RemoveOption | islands/ClippyEditor.tsx:54-56 | removal shortens the list by one exactly for an index in range and touches nothing else |
| Editor.RemoveOptionDeletes | islands/ClippyEditor.tsx:54-56 | removal deletes exactly the entry at the index and keeps the rest in order; an index out of range changes nothing |
| Editor.StartEditing | islands/ClippyEditor.tsx:58-61 | editing starts at the index with that option's text, and the list is unchanged |
| Editor.SaveEdit | islands/ClippyEditor.tsx:63-71 | without an edit or with a blank edit text nothing changes; the save is undefined in this model only when the index lies past the end |
| Editor.SaveEditWrites | islands/ClippyEditor.tsx:63-71 | a save writes the trimmed text at the edited index, appending when that is one past the end, keeps the other options and ends the edit |
| Editor.HandleKeyPress | islands/ClippyEditor.tsx:73-81 | Enter saves an edit under way or else adds the draft; other keys change nothing |
| Editor.AddOptionKeepsListed | islands/ClippyEditor.tsx:47-52 | adding keeps every option trimmed and non-empty |
| Editor.RemoveOptionKeepsListed | islands/ClippyEditor.tsx:54-56 | removing keeps every option trimmed and non-empty |
| Editor.SaveEditKeepsListed | islands/ClippyEditor.tsx:63-71 | saving keeps every option trimmed and non-empty |
| Editor.HandleKeyPressKeepsListed | islands/ClippyEditor.tsx:73-81 | no key press breaks that invariant |
| Editor.RemoveBeforeEditRetargets | islands/ClippyEditor.tsx:54-71 | removing an option before the one being edited leaves the index in place, so the save overwrites the next option instead |
| Editor.RemoveDuringLastEditAppends | islands/ClippyEditor.tsx:54-71 | removing any option while the last is being edited makes the save append a new option |
| Editor.PreviewUrl | islands/ClippyEditor.tsx:30-37 | the address only computes; `Editor.PreviewParameters` and `Editor.EditorOptionsReachImage` state what the handler reads back from it |
| Editor.PreviewParameters | islands/ClippyEditor.tsx:30-37 | the preview address splits at `&` into the text, then options exactly when there are any, then `transparent=true` exactly when set |
| Editor.EditorOptionsReachImage | islands/ClippyEditor.tsx:35-37 | for listed (trimmed, non-empty) options, the editor's options, bar-free and printable, are the options the image handler reads back from the address |
| Editor.BarsAddOptions | routes/r.ts:347-350 | for listed (trimmed, non-empty) options, the image shows one option per editor option plus one per `\|` they hold: each bar splits an option once more |
| Editor.BarSplitsOption | routes/r.ts:347-350 | the simplest case of that: the editor option "a\|b" reaches the image as the two options "a" and "b" |

## Left out

- The image cache (`caches.open`, `match`, `put`) and the response headers: they are storage and transport, not logic.
- Loading the mascot PNG: the mascot is modelled as its rectangle only.
- The second call to `drawClippyMessage` on the real canvas: it is deterministic and repeats the first, so the model draws once.
- Colours, the font string, line width, `fill` and `stroke`: they change pixels, not geometry.
- `URLSearchParams` percent-decoding: query values are taken as the parser returns them. The further `decodeURIComponent` is the `Decoder` parameter, so the double decoding of a `%` in the text is not analysed.
- `req.json()` parsing and `publishImage` (lib/db.ts is not part of this model): the validator starts from a parsed JSON value, and publication is its `Published` outcome.
- The editor's JSX, clipboard copy, publish `fetch`, toasts and timers: they are user-interface effects with no state the option list depends on.
- Handler.Handle: the outer `catch` is modelled only for decoding failures. Other exceptions (image loading, canvas allocation) are outside the model.
- Render.DrawClippyMessage: the catch at lines 308-311, which draws "Error displaying message" when the `?` fallback itself throws, is not modelled. A failing line always draws `?`.
- Editor.SaveEdit: a save at an index more than one past the end would give the JavaScript array holes. The model returns `None` there instead of representing sparse arrays.
- Editor.StartEditing: it requires an index inside the list, as the list only renders edit buttons for its own entries.
- The `fontSize` argument of `wrapText` is unused by the source and has no counterpart.
- Floating point: widths and heights are exact reals, so rounding in `fontSize * 1.4` and the sums is not modelled.
- Strings are sequences of Unicode scalar values rather than UTF-16 code units, which only matters for characters outside the Basic Multilingual Plane. The sanitizer removes those anyway.
- Render.PaintInsideBubble: horizontally it states only the column each command starts in. Text widths depend on the measurer, so it does not claim that text ends inside the bubble.
- Render.DrawInsideBubble: glyph extents are not modelled, so the text above and below a baseline is not bounded; only baselines and marker discs are.
- Handler.InkOnCanvas: for text it bounds only the start point of the line. Where the line ends depends on the measurer.

=== FILE: editor.dfy ===
/** The option list of islands/ClippyEditor.tsx and the preview address it
    builds. Each handler is a function from the component's state before the
    event to its state after it. */
module Editor {
  import opened Optional
  import opened Strings
  import opened Sanitizer
  import Layout
  import Handler

  /** The component state the handlers read and write. `editing` is the
      `editingIndex` signal, `None` for `null`. */
  datatype EditorState = EditorState(
    text: string,
    options: seq<string>,
    newOption: string,
    editing: Option<nat>,
    editingText: string,
    transparent: bool)

  /** `encodeURIComponent`: whatever it returns, it never contains `&`. */
  type Encoder = e: string -> string | forall s :: '&' !in e(s)
    witness (s: string) => ""

  /** An option as the list keeps it: already trimmed and not empty. */
  predicate IsListed(o: string) {
    o != "" && Trim(o) == o
  }

  predicate AllListed(options: seq<string>) {
    forall j :: 0 <= j < |options| ==> IsListed(options[j])
  }

  /** The query the preview builds from a head and up to two optional
      `&`-prefixed parameters. */
  function Query(head: string, opts: string, hasOpts: bool, flag: string, hasFlag: bool): string {
    head + (if hasOpts then ['&'] + opts else []) + (if hasFlag then ['&'] + flag else [])
  }

  /** The parts such a query is made of. */
  function QueryParts(head: string, opts: string, hasOpts: bool, flag: string, hasFlag: bool): seq<string> {
    [head] + (if hasOpts then [opts] else []) + (if hasFlag then [flag] else [])
  }

  /** `addOption`: a non-blank draft is trimmed onto the end of the list and
      the draft is cleared; a blank draft changes nothing. */
  function AddOption(s: EditorState): (r: EditorState)
    ensures Trim(s.newOption) != "" ==> r.options == s.options + [Trim(s.newOption)] && r.newOption == ""
    ensures Trim(s.newOption) == "" ==> r == s
    ensures r.text == s.text && r.editing == s.editing && r.editingText == s.editingText
    ensures r.transparent == s.transparent
  {
    if Trim(s.newOption) != "" then s.(options := s.options + [Trim(s.newOption)], newOption := "")
    else s
  }

  /** `options.filter((_, i) => i !== index)`: the entries whose position is
      not `index`. */
  function Without(xs: seq<string>, index: int): (r: seq<string>)
    ensures |r| == |xs| - (if 0 <= index < |xs| then 1 else 0)
  {
    if |xs| == 0 then []
    else (if index == 0 then [] else [xs[0]]) + Without(xs[1..], index - 1)
  }

  /** `removeOption(index)`: only the list changes. */
  function RemoveOption(s: EditorState, index: int): (r: EditorState)
    ensures |r.options| == |s.options| - (if 0 <= index < |s.options| then 1 else 0)
    ensures r.text == s.text && r.newOption == s.newOption && r.editing == s.editing
    ensures r.editingText == s.editingText && r.transparent == s.transparent
  {
    s.(options := Without(s.options, index))
  }

  /** `startEditing(index)`: the list only offers indices of its entries. */
  function StartEditing(s: EditorState, index: nat): (r: EditorState)
    requires index < |s.options|
    ensures r.editing == Some(index) && r.editingText == s.options[index]
    ensures r.options == s.options && r.text == s.text && r.newOption == s.newOption
    ensures r.transparent == s.transparent
  {
    s.(editing := Some(index), editingText := s.options[index])
  }

  /** `saveEdit`: with an edit under way and a non-blank edit text, the trimmed
      text is written at the edited index and the edit ends; otherwise nothing
      changes. Writing at the index one past the end appends. `None` when the
      index lies further out: the JavaScript array would gain holes, which this
      model does not represent. */
  function SaveEdit(s: EditorState): (r: Option<EditorState>)
    ensures r.None? <==> s.editing.Some? && Trim(s.editingText) != "" && s.editing.value > |s.options|
    ensures r.Some? && (s.editing.None? || Trim(s.editingText) == "") ==> r.value == s
    ensures r.Some? ==> r.value.text == s.text && r.value.newOption == s.newOption
    ensures r.Some? ==> r.value.transparent == s.transparent
  {
    if s.editing.Some? && Trim(s.editingText) != "" then
      var k := s.editing.value;
      var saved := Trim(s.editingText);
      if k < |s.options| then Some(s.(options := s.options[k := saved], editing := None, editingText := ""))
      else if k == |s.options| then Some(s.(options := s.options + [saved], editing := None, editingText := ""))
      else None
    else Some(s)
  }

  /** A save that goes through writes the trimmed text at the edited index,
      extending the list by one when that index is one past the end, keeps
      every other option, and ends the edit. */
  lemma SaveEditWrites(s: EditorState)
    requires s.editing.Some? && Trim(s.editingText) != "" && SaveEdit(s).Some?
    ensures var r := SaveEdit(s).value;
      var k := s.editing.value;
      && r.editing.None? && r.editingText == ""
      && |r.options| == (if k < |s.options| then |s.options| else |s.options| + 1)
      && r.options[k] == Trim(s.editingText)
      && (forall j :: 0 <= j < |s.options| && j != k ==> r.options[j] == s.options[j])
  {
  }

  /** `handleKeyPress`: Enter saves an edit under way, or else adds a
      non-blank draft; any other key does nothing. */
  function HandleKeyPress(s: EditorState, key: string): (r: Option<EditorState>)
    ensures key != "Enter" ==> r == Some(s)
    ensures key == "Enter" && s.editing.Some? ==> r == SaveEdit(s)
    ensures key == "Enter" && s.editing.None? ==> r == Some(AddOption(s))
  {
    if key == "Enter" then
      if s.editing.Some? then SaveEdit(s)
      else if Trim(s.newOption) != "" then Some(AddOption(s))
      else Some(s)
    else Some(s)
  }

  /** The preview address the effect keeps in step with the text, the options
      and the transparency flag: `/r?text=…`, then `&options=…` when there are
      options, then `&transparent=true` when the flag is set. */
  function PreviewUrl(enc: Encoder, s: EditorState): string {
    Query("/r?text=" + enc(s.text),
          "options=" + enc(Join(s.options, Handler.OptionSeparator)), |s.options| > 0,
          "transparent=true", s.transparent)
  }

  // ---------------------------------------------------------------------------
  // Removal.

  /** An index outside the list drops nothing. */
  lemma {:induction false} WithoutOutside(xs: seq<string>, index: int)
    requires !(0 <= index < |xs|)
    ensures Without(xs, index) == xs
  {
    if |xs| > 0 {
      WithoutOutside(xs[1..], index - 1);
      assert [xs[0]] + xs[1..] == xs;
    }
  }

  /** An index inside the list drops that entry and keeps the rest in order. */
  lemma {:induction false} WithoutInside(xs: seq<string>, index: int)
    requires 0 <= index < |xs|
    ensures Without(xs, index) == xs[..index] + xs[index + 1..]
  {
    if index == 0 {
      WithoutOutside(xs[1..], -1);
    } else {
      WithoutInside(xs[1..], index - 1);
      assert [xs[0]] + (xs[1..][..index - 1] + xs[1..][index..]) == xs[..index] + xs[index + 1..];
    }
  }

  /** `removeOption` deletes exactly the entry at `index`. */
  lemma RemoveOptionDeletes(s: EditorState, index: int)
    ensures var r := RemoveOption(s, index);
      && (0 <= index < |s.options| ==> r.options == s.options[..index] + s.options[index + 1..])
      && (!(0 <= index < |s.options|) ==> r.options == s.options)
  {
    if 0 <= index < |s.options| {
      WithoutInside(s.options, index);
    } else {
      WithoutOutside(s.options, index);
    }
  }

  // ---------------------------------------------------------------------------
  // The list invariant: every option is trimmed and not empty.

  lemma TrimmedNonBlankListed(x: string)
    requires Trim(x) != ""
    ensures IsListed(Trim(x))
  {
    TrimIdempotent(x);
  }

  lemma AddOptionKeepsListed(s: EditorState)
    requires AllListed(s.options)
    ensures AllListed(AddOption(s).options)
  {
    if Trim(s.newOption) != "" {
      TrimmedNonBlankListed(s.newOption);
      AppendKeeps(s.options, Trim(s.newOption), IsListed);
    }
  }

  /** Appending an entry that has a property every entry has keeps it
      universal. */
  lemma AppendKeeps(xs: seq<string>, x: string, p: string -> bool)
    requires forall j :: 0 <= j < |xs| ==> p(xs[j])
    requires p(x)
    ensures forall j :: 0 <= j < |xs + [x]| ==> p((xs + [x])[j])
  {
  }

  /** The filter keeps only entries of the list, so any property every entry
      has survives it. */
  lemma {:induction false} WithoutKeeps(xs: seq<string>, index: int, p: string -> bool)
    requires forall j :: 0 <= j < |xs| ==> p(xs[j])
    ensures forall j :: 0 <= j < |Without(xs, index)| ==> p(Without(xs, index)[j])
  {
    if |xs| > 0 {
      WithoutKeeps(xs[1..], index - 1, p);
    }
  }

  lemma RemoveOptionKeepsListed(s: EditorState, index: int)
    requires AllListed(s.options)
    ensures AllListed(RemoveOption(s, index).options)
  {
    WithoutKeeps(s.options, index, IsListed);
  }

  lemma SaveEditKeepsListed(s: EditorState)
    requires AllListed(s.options) && SaveEdit(s).Some?
    ensures AllListed(SaveEdit(s).value.options)
  {
    if s.editing.Some? && Trim(s.editingText) != "" {
      TrimmedNonBlankListed(s.editingText);
      var r := SaveEdit(s).value;
      forall j | 0 <= j < |r.options|
        ensures IsListed(r.options[j])
      {
        if j != s.editing.value {
          assert r.options[j] == s.options[j];
        }
      }
    }
  }

  /** A key press keeps every option trimmed and non-empty. */
  lemma HandleKeyPressKeepsListed(s: EditorState, key: string)
    requires AllListed(s.options) && HandleKeyPress(s, key).Some?
    ensures AllListed(HandleKeyPress(s, key).value.options)
  {
    if key == "Enter" {
      if s.editing.Some? {
        SaveEditKeepsListed(s);
      } else {
        AddOptionKeepsListed(s);
      }
    }
  }

  // ---------------------------------------------------------------------------
  // The edit index after a removal.

  /** Removing an option before the one being edited leaves the index where it
      was, so saving overwrites the option that moved into that place; the
      option that was being edited keeps its old text one place earlier. */
  lemma RemoveBeforeEditRetargets(s: EditorState, i: nat)
    requires s.editing.Some? && i < s.editing.value < |s.options|
    requires Trim(s.editingText) != ""
    ensures var after := RemoveOption(s, i);
      var k := s.editing.value;
      && SaveEdit(after).Some?
      && SaveEdit(after).value.options[k - 1] == s.options[k]
      && (k + 1 < |s.options| ==> SaveEdit(after).value.options[k] == Trim(s.editingText)
                                    && after.options[k] == s.options[k + 1])
  {
    RemoveOptionDeletes(s, i);
  }

  /** Removing any option while the last one is being edited leaves the index
      one past the end, and saving then appends the edit text as a new option. */
  lemma RemoveDuringLastEditAppends(s: EditorState, i: nat)
    requires s.editing == Some(|s.options| - 1) && i < |s.options|
    requires Trim(s.editingText) != ""
    ensures var after := RemoveOption(s, i);
      && |after.options| == |s.options| - 1
      && SaveEdit(after).Some?
      && SaveEdit(after).value.options == after.options + [Trim(s.editingText)]
  {
    RemoveOptionDeletes(s, i);
  }

  // ---------------------------------------------------------------------------
  // The preview address.

  /** A fixed prefix without `&` followed by an encoded value holds no `&`. */
  lemma EncodedPart(enc: Encoder, prefix: string, value: string)
    requires '&' !in prefix
    ensures '&' !in prefix + enc(value)
  {
    assert '&' !in enc(value);
  }

  lemma SplitTwo(a: string, b: string)
    requires '&' !in a && '&' !in b
    ensures Split(a + ['&'] + b, '&') == [a, b]
  {
    SplitAtSeparator(a, b, '&');
    SplitNoSeparator(b, '&');
  }

  lemma SplitThree(a: string, b: string, c: string)
    requires '&' !in a && '&' !in b && '&' !in c
    ensures Split(a + ['&'] + b + ['&'] + c, '&') == [a, b, c]
  {
    assert a + ['&'] + b + ['&'] + c == a + ['&'] + (b + ['&'] + c);
    SplitAtSeparator(a, b + ['&'] + c, '&');
    SplitTwo(b, c);
  }

  lemma SplitQueryWithOptions(head: string, opts: string, hasOpts: bool, flag: string, hasFlag: bool)
    requires '&' !in head && '&' !in opts && '&' !in flag && hasOpts
    ensures Split(Query(head, opts, hasOpts, flag, hasFlag), '&') == QueryParts(head, opts, hasOpts, flag, hasFlag)
  {
    if hasFlag {
      assert Query(head, opts, hasOpts, flag, hasFlag) == head + ['&'] + opts + ['&'] + flag;
      SplitThree(head, opts, flag);
    } else {
      assert Query(head, opts, hasOpts, flag, hasFlag) == head + ['&'] + opts;
      SplitTwo(head, opts);
    }
  }

  lemma SplitQueryWithoutOptions(head: string, opts: string, hasOpts: bool, flag: string, hasFlag: bool)
    requires '&' !in head && '&' !in opts && '&' !in flag && !hasOpts
    ensures Split(Query(head, opts, hasOpts, flag, hasFlag), '&') == QueryParts(head, opts, hasOpts, flag, hasFlag)
  {
    if hasFlag {
      assert Query(head, opts, hasOpts, flag, hasFlag) == head + ['&'] + flag;
      SplitTwo(head, flag);
    } else {
      assert Query(head, opts, hasOpts, flag, hasFlag) == head;
      SplitNoSeparator(head, '&');
    }
  }

  /** The preview address splits at `&` into the text parameter, then the
      options parameter exactly when there are options, then the transparency
      parameter exactly when the flag is set: the encoded values cannot inject
      a parameter. */
  lemma PreviewParameters(enc: Encoder, s: EditorState)
    ensures Split(PreviewUrl(enc, s), '&')
         == ["/r?text=" + enc(s.text)]
            + (if |s.options| > 0 then ["options=" + enc(Join(s.options, Handler.OptionSeparator))] else [])
            + (if s.transparent then ["transparent=true"] else [])
  {
    var opts := "options=" + enc(Join(s.options, Handler.OptionSeparator));
    EncodedPart(enc, "/r?text=", s.text);
    EncodedPart(enc, "options=", Join(s.options, Handler.OptionSeparator));
    var head := "/r?text=" + enc(s.text);
    if |s.options| > 0 {
      SplitQueryWithOptions(head, opts, true, "transparent=true", s.transparent);
    } else {
      SplitQueryWithoutOptions(head, opts, false, "transparent=true", s.transparent);
    }
  }

  // ---------------------------------------------------------------------------
  // From the editor to the image.

  lemma {:induction false} JoinStartsWithFirst(xs: seq<string>, sep: char)
    requires |xs| > 0
    ensures |Join(xs, sep)| >= |xs[0]|
  {
    assert xs == [xs[0]] + xs[1..];
    JoinCons(xs[0], xs[1..], sep);
  }

  /** The options the image shows are the editor's options when these hold no
      `|`, are printable ASCII, and survive the encoding and decoding of the
      address: a non-empty listed option keeps the joined value non-empty. */
  lemma EditorOptionsReachImage(decode: Handler.Decoder, options: seq<string>)
    requires |options| > 0 && AllListed(options)
    requires forall j :: 0 <= j < |options| ==> Handler.OptionSeparator !in options[j]
    requires forall j :: 0 <= j < |options| ==> Sanitize(options[j]) == options[j]
    requires decode(Join(options, Handler.OptionSeparator)) == Some(Join(options, Handler.OptionSeparator))
    ensures Handler.ParseOptions(decode, Some(Join(options, Handler.OptionSeparator))) == Some(options)
  {
    JoinStartsWithFirst(options, Handler.OptionSeparator);
    Handler.OptionsRoundTrip(decode, options);
  }

  /** Every `|` typed into a listed option splits it once more on the way
      to the image: the image shows one option per editor option plus one
      per `|` they hold. With no options the parameter is left out and the
      image shows none. */
  lemma BarsAddOptions(decode: Handler.Decoder, options: seq<string>)
    requires AllListed(options)
    requires decode(Join(options, Handler.OptionSeparator)) == Some(Join(options, Handler.OptionSeparator))
    ensures var r := Handler.ParseOptions(decode, Some(Join(options, Handler.OptionSeparator)));
      r.Some? && |r.value| == |options| + CountIn(options, Handler.OptionSeparator)
  {
    if |options| > 0 {
      assert IsListed(options[0]);
      JoinStartsWithFirst(options, Handler.OptionSeparator);
      Handler.OptionsArePieces(decode, Some(Join(options, Handler.OptionSeparator)));
      JoinCount(options, Handler.OptionSeparator);
    }
  }

  /** The simplest case of the above: "a|b" reaches the image as "a" and "b". */
  lemma BarSplitsOption(decode: Handler.Decoder)
    requires decode("a|b") == Some("a|b")
    ensures AllListed(["a|b"])
    ensures Handler.ParseOptions(decode, Some(Join(["a|b"], Handler.OptionSeparator))) == Some(["a", "b"])
  {
    assert Join(["a|b"], Handler.OptionSeparator) == "a|b";
    assert Split("a|b", '|') == ["a", "b"] by {
      assert "a|b" == "a" + ['|'] + "b";
      SplitTwoBars();
    }
    SanitizedLetters();
    TrimTrimmed("a|b");
  }

  lemma SanitizedLetters()
    ensures Layout.SanitizeAll(["a", "b"]) == ["a", "b"]
  {
    SanitizeKeepsPrintable("a");
    SanitizeKeepsPrintable("b");
    Handler.SanitizedFixed(["a", "b"]);
  }

  lemma SplitTwoBars()
    ensures Split("a" + ['|'] + "b", '|') == ["a", "b"]
  {
    SplitAtSeparator("a", "b", '|');
    SplitNoSeparator("b", '|');
  }
}

=== FILE: handler.dfy ===
/** The `GET` handler of routes/r.ts: it reads the query, sanitizes the text
    and options, sizes a canvas around the speech bubble and the mascot, and
    paints both. A decoding failure ends in the fixed error image of the
    handler's `catch`. */
module Handler {
  import opened Optional
  import opened Strings
  import opened Measure
  import opened Sanitizer
  import opened Layout
  import opened Render

  const DefaultText: string := "Hello! I'm Clippy!"
  /** The canvas width handed to `drawClippyMessage`. */
  const MaxWidth: real := 600.0
  /** The mascot image is drawn as a square of this side. */
  const MascotSize: real := 200.0
  /** Space between the bubble and the mascot below it. */
  const Gap: real := 40.0
  const OptionSeparator: char := '|'

  const ErrorWidth: real := 400.0
  const ErrorHeight: real := 300.0
  const ErrorText: string := "Error generating image"
  const ErrorAt: Point := Point(50.0, 150.0)

  /** The three query parameters the handler reads, each absent or present
      with its value as `URLSearchParams` returns it. */
  datatype Query = Query(text: Option<string>, options: Option<string>, transparent: Option<string>)

  /** `decodeURIComponent`: `None` where it throws. */
  type Decoder = string -> Option<string>

  /** What the handler takes from the query. */
  datatype Request = Request(text: string, options: seq<string>, transparent: bool)

  datatype Background = Transparent | White

  datatype Rect = Rect(x: real, y: real, width: real, height: real)

  datatype Image =
    | Rendered(width: real, height: real, background: Background, bubble: Picture, mascot: Rect)
    | ErrorImage(width: real, height: real, message: string, at: Point)

  /** JavaScript's `v || d` on a parameter: absent and empty values are falsy. */
  predicate Truthy(v: Option<string>) {
    v.Some? && v.value != ""
  }

  /** Reads the options parameter: none when it is absent or empty, otherwise
      the decoded value split at `|`, each piece sanitized. `None` when the
      decoding throws. */
  function ParseOptions(decode: Decoder, param: Option<string>): (r: Option<seq<string>>)
    ensures r.None? <==> Truthy(param) && decode(param.value).None?
    ensures r.Some? ==> forall j :: 0 <= j < |r.value| ==> forall i :: 0 <= i < |r.value[j]| ==> IsKept(r.value[j][i])
  {
    if Truthy(param) then
      match decode(param.value)
      case None => None
      case Some(joined) => Some(SanitizeAll(Split(joined, OptionSeparator)))
    else Some([])
  }

  /** Reads the query: the sanitized text (the default greeting when the
      parameter is absent or empty), the options, and the transparency flag.
      `None` when a decoding throws. */
  function ParseRequest(decode: Decoder, q: Query): (r: Option<Request>)
    ensures r.Some? <==>
              && decode(if Truthy(q.text) then q.text.value else DefaultText).Some?
              && ParseOptions(decode, q.options).Some?
    ensures r.Some? ==> r.value.options == ParseOptions(decode, q.options).value
    ensures r.Some? ==> (r.value.transparent <==> q.transparent == Some("true"))
    ensures r.Some? ==> forall i :: 0 <= i < |r.value.text| ==> IsKept(r.value.text[i])
  {
    var transparent := q.transparent == Some("true");
    match decode(if Truthy(q.text) then q.text.value else DefaultText)
    case None => None
    case Some(raw) =>
      match ParseOptions(decode, q.options)
      case None => None
      case Some(options) => Some(Request(Sanitize(raw), options, transparent))
  }

  /** The picture `drawClippyMessage` makes for a request. */
  function Bubble(m: Measurer, fails: string -> bool, req: Request): Picture {
    DrawClippyMessage(m, fails, req.text, MaxWidth, req.options)
  }

  /** The successful path: the canvas is the bubble's footprint plus the
      mascot's width wide, and the bubble's height plus the gap and the mascot
      high (never less than the mascot plus 40). The mascot sits in the
      bottom-right corner. */
  function Compose(m: Measurer, fails: string -> bool, req: Request): (r: Image)
    ensures r.Rendered?
    ensures r.background == (if req.transparent then Transparent else White)
    ensures r.bubble == Bubble(m, fails, req)
    ensures r.width >= MinFootprint + MascotSize
    ensures r.height >= MascotSize + 40.0
  {
    var bubble := Bubble(m, fails, req);
    var width := bubble.width + MascotSize;
    var height := Max(bubble.height + Gap + MascotSize, MascotSize + 40.0);
    Rendered(width, height, if req.transparent then Transparent else White, bubble,
             Rect(width - MascotSize, height - MascotSize, MascotSize, MascotSize))
  }

  /** The whole handler, less the cache and the image loading. */
  function Handle(m: Measurer, fails: string -> bool, decode: Decoder, q: Query): (r: Image)
    ensures r.ErrorImage? <==> ParseRequest(decode, q).None?
  {
    match ParseRequest(decode, q)
    case None => ErrorImage(ErrorWidth, ErrorHeight, ErrorText, ErrorAt)
    case Some(req) => Compose(m, fails, req)
  }

  // ---------------------------------------------------------------------------
  // The query.

  /** The greeting is printable ASCII, so sanitizing leaves it alone. */
  lemma DefaultTextPrintable()
    ensures Sanitize(DefaultText) == DefaultText
  {
    assert forall i :: 0 <= i < |DefaultText| ==> IsKept(DefaultText[i]);
    SanitizeKeepsPrintable(DefaultText);
  }

  /** Without a text parameter (or with an empty one) the greeting is shown:
      it decodes to itself and is already printable ASCII. */
  lemma DefaultGreeting(decode: Decoder, q: Query)
    requires !Truthy(q.text) && decode(DefaultText) == Some(DefaultText)
    requires !Truthy(q.options)
    ensures ParseRequest(decode, q) == Some(Request(DefaultText, [], q.transparent == Some("true")))
  {
    DefaultTextPrintable();
  }

  /** With an options parameter there is one option per `|`-separated piece of
      the decoded value, each sanitized. */
  lemma OptionsArePieces(decode: Decoder, param: Option<string>)
    requires Truthy(param) && decode(param.value).Some?
    ensures var decoded := decode(param.value).value;
      var opts := ParseOptions(decode, param).value;
      && |opts| == multiset(decoded)[OptionSeparator] + 1
      && forall j :: 0 <= j < |opts| ==> opts[j] == Sanitize(Split(decoded, OptionSeparator)[j])
  {
    SplitCount(decode(param.value).value, OptionSeparator);
  }

  /** Options joined with `|` and passed through a decoder that gives the
      value back read back as the same options, provided none holds a `|`,
      all are already sanitized and the joined value is not empty. */
  lemma OptionsRoundTrip(decode: Decoder, options: seq<string>)
    requires |options| > 0 && Join(options, OptionSeparator) != ""
    requires forall j :: 0 <= j < |options| ==> OptionSeparator !in options[j]
    requires forall j :: 0 <= j < |options| ==> Sanitize(options[j]) == options[j]
    requires decode(Join(options, OptionSeparator)) == Some(Join(options, OptionSeparator))
    ensures ParseOptions(decode, Some(Join(options, OptionSeparator))) == Some(options)
  {
    SplitJoin(options, OptionSeparator);
    SanitizedFixed(options);
  }

  lemma SanitizedFixed(options: seq<string>)
    requires forall j :: 0 <= j < |options| ==> Sanitize(options[j]) == options[j]
    ensures SanitizeAll(options) == options
  {
  }

  /** The one list the round trip loses: a single empty option joins to the
      empty string, which reads as no options at all. */
  lemma LoneEmptyOptionIsLost(decode: Decoder)
    ensures Join([""], OptionSeparator) == ""
    ensures ParseOptions(decode, Some(Join([""], OptionSeparator))) == Some([])
  {
  }

  // ---------------------------------------------------------------------------
  // The canvas.

  /** The bubble is never lower than 40, so the canvas height is always the
      bubble's height plus the gap and the mascot: the floor never applies. */
  lemma CanvasSize(m: Measurer, fails: string -> bool, req: Request)
    ensures var r := Compose(m, fails, req);
      && r.width == Bubble(m, fails, req).width + MascotSize
      && r.height == Bubble(m, fails, req).height + Gap + MascotSize
  {
    MetricsNonNegative(m, Sanitize(req.text), SanitizeAll(req.options), MaxWidth, FontSize, Padding);
  }

  /** The mascot fills the bottom-right corner of the canvas, wholly inside it. */
  lemma MascotInCorner(m: Measurer, fails: string -> bool, req: Request)
    ensures var r := Compose(m, fails, req);
      && r.mascot.x + r.mascot.width == r.width && r.mascot.y + r.mascot.height == r.height
      && r.mascot.x >= 0.0 && r.mascot.y >= 0.0
      && r.mascot.width == MascotSize && r.mascot.height == MascotSize
  {
  }

  /** The bubble ends left of the mascot, at least one bubble offset clear of it. */
  lemma BubbleLeftOfMascot(m: Measurer, fails: string -> bool, req: Request)
    ensures var r := Compose(m, fails, req);
      var metrics := DrawMetrics(m, req.text, MaxWidth, req.options);
      BubbleX + metrics.width + BubbleX <= r.mascot.x
  {
  }

  /** Every point of the bubble's outline, tail included, lies on the canvas. */
  lemma OutlineOnCanvas(m: Measurer, fails: string -> bool, req: Request)
    ensures var r := Compose(m, fails, req);
      forall i, p :: 0 <= i < |r.bubble.outline| && p in CmdPoints(r.bubble.outline[i]) ==>
        InBox(p, Point(0.0, 0.0), Point(r.width, r.height))
  {
    var metrics := DrawMetrics(m, req.text, MaxWidth, req.options);
    CanvasSize(m, fails, req);
    MetricsMinimumWidth(m, Sanitize(req.text), SanitizeAll(req.options), MaxWidth, FontSize, Padding);
    MetricsNonNegative(m, Sanitize(req.text), SanitizeAll(req.options), MaxWidth, FontSize, Padding);
    DrawPaints(m, fails, req.text, MaxWidth, req.options);
    PathInsideBox(metrics.width, metrics.height);
  }

  /** A command lies on a canvas of the given size: a text's start point, or
      a marker's whole disc. */
  predicate OnCanvas(c: Ink, width: real, height: real) {
    match c
    case Text(_, at) => 0.0 <= at.x <= width && 0.0 <= at.y <= height
    case Marker(at, radius) =>
      0.0 <= at.x - radius && at.x + radius <= width && 0.0 <= at.y - radius && at.y + radius <= height
  }

  /** Every painted text starts, and every marker lies, on the canvas and to
      the left of the mascot. Vertically every baseline and marker lies inside
      the bubble as placed on the canvas: below its top edge and above its
      bottom edge, which is the gap less the bubble's offset above the
      mascot's top. */
  lemma InkOnCanvas(m: Measurer, fails: string -> bool, req: Request)
    ensures var r := Compose(m, fails, req);
      forall i :: 0 <= i < |r.bubble.ink| ==>
        && OnCanvas(r.bubble.ink[i], r.width - MascotSize, r.height)
        && WithinBubble(r.bubble.ink[i], r.height - Gap - MascotSize)
  {
    var r := Compose(m, fails, req);
    CanvasSize(m, fails, req);
    DrawInsideBubble(m, fails, req.text, MaxWidth, req.options);
    InkPlaced(r.bubble.ink, r.bubble.height, r.width - MascotSize, r.height);
  }

  /** Commands inside the bubble and in their columns lie on a canvas at least
      the minimum footprint wide and the gap and mascot higher than the bubble. */
  lemma InkPlaced(ink: seq<Ink>, bubbleHeight: real, width: real, height: real)
    requires forall i :: 0 <= i < |ink| ==> WithinBubble(ink[i], bubbleHeight) && InColumn(ink[i])
    requires width >= MinFootprint && height == bubbleHeight + Gap + MascotSize
    ensures forall i :: 0 <= i < |ink| ==>
              OnCanvas(ink[i], width, height) && WithinBubble(ink[i], height - Gap - MascotSize)
  {
  }

  /** A query that cannot be decoded gets the fixed 400 by 300 error image. */
  lemma ErrorImageFixed(m: Measurer, fails: string -> bool, decode: Decoder, q: Query)
    requires decode(if Truthy(q.text) then q.text.value else DefaultText).None?
    ensures Handle(m, fails, decode, q) == ErrorImage(ErrorWidth, ErrorHeight, ErrorText, ErrorAt)
  {
  }
}

=== FILE: layout.dfy ===
/** `getMaxTextWidth` and `calculateBubbleMetrics` of routes/r.ts: the widest
    content, the bubble's width and height, and the wrapped lines of the
    message and of every option. */
module Layout {
  import opened Strings
  import opened Sanitizer
  import opened Measure
  import opened Wrap

  /** Horizontal room kept for the mascot: the content may be at most
      `maxCanvasWidth - MascotReserve` wide. */
  const MascotReserve: real := 250.0
  /** Room counted for an option's radio marker when measuring the widest content. */
  const MarkerAllowance: real := 40.0
  /** How much narrower option lines are wrapped than message lines. */
  const MarkerIndent: real := 30.0
  /** The line height: 1.4 times the font size. (A literal factor keeps the
      product linear for the solver.) */
  function LineHeight(fontSize: real): real {
    fontSize * 1.4
  }

  /** The wrapped lines of one option and the height they take. */
  datatype WrappedBlock = WrappedBlock(lines: seq<string>, height: real)

  /** The geometry of the bubble and the lines to draw in it. */
  datatype BubbleMetrics = BubbleMetrics(
    height: real,
    width: real,
    lines: seq<string>,
    wrappedOptions: seq<WrappedBlock>,
    optionsHeight: real)

  // ---------------------------------------------------------------------------
  // The widest content.

  /** `Math.max(...paragraphs.map(p => measure(p)))`. */
  function WidestParagraph(m: Measurer, ps: seq<string>): (r: real)
    requires |ps| > 0
    ensures forall k :: 0 <= k < |ps| ==> m(ps[k]) <= r
    ensures exists k :: 0 <= k < |ps| && r == m(ps[k])
  {
    if |ps| == 1 then m(ps[0]) else Max(m(ps[0]), WidestParagraph(m, ps[1..]))
  }

  /** The `forEach` over the options, raising the running maximum `acc` to each
      sanitized option's width plus the marker allowance. */
  function WidenForOptions(m: Measurer, acc: real, options: seq<string>): (r: real)
    ensures acc <= r
    ensures forall j :: 0 <= j < |options| ==> m(Sanitize(options[j])) + MarkerAllowance <= r
    ensures r == acc || exists j :: 0 <= j < |options| && r == m(Sanitize(options[j])) + MarkerAllowance
    decreases |options|
  {
    if |options| == 0 then acc
    else WidenForOptions(m, Max(acc, m(Sanitize(options[0])) + MarkerAllowance), options[1..])
  }

  /** `getMaxTextWidth`: the least upper bound of the widths of the message's
      paragraphs and of the options plus their marker allowance. */
  function GetMaxTextWidth(m: Measurer, message: string, options: seq<string>): (r: real)
    ensures forall k :: 0 <= k < |Paragraphs(message)| ==> m(Paragraphs(message)[k]) <= r
    ensures forall j :: 0 <= j < |options| ==> m(Sanitize(options[j])) + MarkerAllowance <= r
    ensures || (exists k :: 0 <= k < |Paragraphs(message)| && r == m(Paragraphs(message)[k]))
            || (exists j :: 0 <= j < |options| && r == m(Sanitize(options[j])) + MarkerAllowance)
  {
    WidenForOptions(m, WidestParagraph(m, Paragraphs(message)), options)
  }

  // ---------------------------------------------------------------------------
  // Bubble metrics.

  /** `options.map(sanitizeText)`. */
  function SanitizeAll(options: seq<string>): (r: seq<string>)
    ensures |r| == |options|
    ensures forall j :: 0 <= j < |options| ==> r[j] == Sanitize(options[j])
  {
    if |options| == 0 then [] else [Sanitize(options[0])] + SanitizeAll(options[1..])
  }

  /** The `map` that wraps every option and records its height. */
  function WrapOptions(m: Measurer, options: seq<string>, maxWidth: real, lineHeight: real): (r: seq<WrappedBlock>)
    ensures |r| == |options|
  {
    seq(|options|, j requires 0 <= j < |options| => WrapOption(m, options[j], maxWidth, lineHeight))
  }

  /** One option's wrapped lines and their height. */
  function WrapOption(m: Measurer, option: string, maxWidth: real, lineHeight: real): WrappedBlock {
    var lines := WrapText(m, option, maxWidth);
    WrappedBlock(lines, Times(|lines|, lineHeight))
  }

  /** Block j wraps option j. */
  lemma WrapOptionsAt(m: Measurer, options: seq<string>, maxWidth: real, lineHeight: real, j: nat)
    requires j < |options|
    ensures var lines := WrapText(m, options[j], maxWidth);
      WrapOptions(m, options, maxWidth, lineHeight)[j] == WrappedBlock(lines, Times(|lines|, lineHeight))
  {
  }

  /** `wrappedOptions.reduce((sum, opt) => sum + opt.height, 0)`. */
  function SumHeights(blocks: seq<WrappedBlock>): real {
    if |blocks| == 0 then 0.0 else SumHeights(blocks[..|blocks| - 1]) + blocks[|blocks| - 1].height
  }

  /** The number of lines of all blocks together. */
  function TotalLines(blocks: seq<WrappedBlock>): nat {
    if |blocks| == 0 then 0 else TotalLines(blocks[..|blocks| - 1]) + |blocks[|blocks| - 1].lines|
  }

  /** The width the content may take: what it needs, capped by the room left
      beside the mascot. */
  function ContentWidth(m: Measurer, message: string, options: seq<string>,
                        maxCanvasWidth: real, padding: real): real
  {
    Min(maxCanvasWidth - MascotReserve,
        GetMaxTextWidth(m, Sanitize(message), SanitizeAll(options)) + padding * 2.0)
  }

  /** The width message lines are wrapped at: the content width less both
      paddings. */
  function MessageWrapWidth(m: Measurer, message: string, options: seq<string>,
                            maxCanvasWidth: real, padding: real): real
  {
    ContentWidth(m, message, options, maxCanvasWidth, padding) - padding * 2.0
  }

  /** The width option lines are wrapped at: `MarkerIndent` less than the
      message's, leaving room for the radio marker. */
  function OptionWrapWidth(m: Measurer, message: string, options: seq<string>,
                           maxCanvasWidth: real, padding: real): real
  {
    MessageWrapWidth(m, message, options, maxCanvasWidth, padding) - MarkerIndent
  }

  /** The options block's height: the blocks' heights plus `padding / 2`
      between consecutive options, or zero without options. */
  function OptionsHeight(wrapped: seq<WrappedBlock>, padding: real): real {
    if |wrapped| > 0 then SumHeights(wrapped) + Times(|wrapped| - 1, padding / 2.0) else 0.0
  }

  /** The bubble's height: the message lines, the options block, and three
      paddings with options or two without. */
  function BubbleHeight(textHeight: real, wrapped: seq<WrappedBlock>, padding: real): real {
    textHeight + OptionsHeight(wrapped, padding) + (if |wrapped| > 0 then padding * 3.0 else padding * 2.0)
  }

  /** `calculateBubbleMetrics(ctx, message, options, maxCanvasWidth, fontSize, padding)`. */
  function CalculateBubbleMetrics(m: Measurer, message: string, options: seq<string>,
                                  maxCanvasWidth: real, fontSize: real, padding: real): (r: BubbleMetrics)
    ensures |r.wrappedOptions| == |options|
  {
    var maxWidth := ContentWidth(m, message, options, maxCanvasWidth, padding);
    var lineHeight := LineHeight(fontSize);
    var lines := WrapText(m, Sanitize(message), MessageWrapWidth(m, message, options, maxCanvasWidth, padding));
    var wrapped := WrapOptions(m, SanitizeAll(options), OptionWrapWidth(m, message, options, maxCanvasWidth, padding), lineHeight);
    BubbleMetrics(BubbleHeight(Times(|lines|, lineHeight), wrapped, padding), maxWidth + padding * 2.0,
                  lines, wrapped, OptionsHeight(wrapped, padding))
  }

  // ---------------------------------------------------------------------------
  // Properties of the metrics.

  /** The parts of the metrics, one by one. */
  lemma MetricsParts(m: Measurer, message: string, options: seq<string>,
                     maxCanvasWidth: real, fontSize: real, padding: real)
    ensures var r := CalculateBubbleMetrics(m, message, options, maxCanvasWidth, fontSize, padding);
      && r.lines == WrapText(m, Sanitize(message), MessageWrapWidth(m, message, options, maxCanvasWidth, padding))
      && r.wrappedOptions == WrapOptions(m, SanitizeAll(options), OptionWrapWidth(m, message, options, maxCanvasWidth, padding),
                                         LineHeight(fontSize))
      && r.height == BubbleHeight(Times(|r.lines|, LineHeight(fontSize)), r.wrappedOptions, padding)
      && r.optionsHeight == OptionsHeight(r.wrappedOptions, padding)
      && r.width == ContentWidth(m, message, options, maxCanvasWidth, padding) + padding * 2.0
  {
  }

  /** Every block of `WrapOptions` is as high as its lines. */
  lemma WrapOptionsHeights(m: Measurer, options: seq<string>, maxWidth: real, lineHeight: real)
    ensures var blocks := WrapOptions(m, options, maxWidth, lineHeight);
      forall j :: 0 <= j < |blocks| ==> blocks[j].height == Times(|blocks[j].lines|, lineHeight)
  {
    forall j | 0 <= j < |options|
      ensures WrapOptions(m, options, maxWidth, lineHeight)[j].height
           == Times(|WrapOptions(m, options, maxWidth, lineHeight)[j].lines|, lineHeight)
    {
      WrapOptionsAt(m, options, maxWidth, lineHeight, j);
    }
  }

  /** The message is wrapped at the content width less both paddings, and
      option j is wrapped at a further `MarkerIndent` less; each block's height
      is its line count times the line height, and every block has a line. */
  lemma MetricsBlocks(m: Measurer, message: string, options: seq<string>,
                      maxCanvasWidth: real, fontSize: real, padding: real)
    ensures var r := CalculateBubbleMetrics(m, message, options, maxCanvasWidth, fontSize, padding);
      var mw := MessageWrapWidth(m, message, options, maxCanvasWidth, padding);
      var ow := OptionWrapWidth(m, message, options, maxCanvasWidth, padding);
      && r.lines == WrapText(m, Sanitize(message), mw)
      && |r.lines| >= |Paragraphs(message)|
      && forall j :: 0 <= j < |options| ==>
           && r.wrappedOptions[j].lines == WrapText(m, Sanitize(options[j]), ow)
           && |r.wrappedOptions[j].lines| >= 1
           && r.wrappedOptions[j].height == Times(|r.wrappedOptions[j].lines|, LineHeight(fontSize))
  {
    var r := CalculateBubbleMetrics(m, message, options, maxCanvasWidth, fontSize, padding);
    var mw := MessageWrapWidth(m, message, options, maxCanvasWidth, padding);
    var ow := OptionWrapWidth(m, message, options, maxCanvasWidth, padding);
    var opts := SanitizeAll(options);
    var wrapped := WrapOptions(m, opts, ow, LineHeight(fontSize));
    assert r.wrappedOptions == wrapped;
    SanitizeIdempotent(message);
    forall j | 0 <= j < |options|
      ensures r.wrappedOptions[j].lines == WrapText(m, Sanitize(options[j]), ow)
      ensures |r.wrappedOptions[j].lines| >= 1
      ensures r.wrappedOptions[j].height == Times(|r.wrappedOptions[j].lines|, LineHeight(fontSize))
    {
      WrapOptionsAt(m, opts, ow, LineHeight(fontSize), j);
      assert opts[j] == Sanitize(options[j]);
    }
  }

  lemma {:induction false} SumHeightsIsLines(blocks: seq<WrappedBlock>, lineHeight: real)
    requires forall j :: 0 <= j < |blocks| ==> blocks[j].height == Times(|blocks[j].lines|, lineHeight)
    ensures SumHeights(blocks) == Times(TotalLines(blocks), lineHeight)
  {
    if |blocks| > 0 {
      var n := |blocks| - 1;
      SumHeightsIsLines(blocks[..n], lineHeight);
      TimesAdd(TotalLines(blocks[..n]), |blocks[n].lines|, lineHeight);
    }
  }

  /** The height of metrics shaped like `CalculateBubbleMetrics`'s result, in
      closed form, when every block is as high as its lines. */
  lemma {:induction false} HeightClosedForm(r: BubbleMetrics, padding: real, lineHeight: real)
    requires r.height == BubbleHeight(Times(|r.lines|, lineHeight), r.wrappedOptions, padding)
    requires r.optionsHeight == OptionsHeight(r.wrappedOptions, padding)
    requires forall j :: 0 <= j < |r.wrappedOptions| ==>
               r.wrappedOptions[j].height == Times(|r.wrappedOptions[j].lines|, lineHeight)
    ensures r.optionsHeight == (if |r.wrappedOptions| == 0 then 0.0
                                else Times(TotalLines(r.wrappedOptions), lineHeight)
                                     + Times(|r.wrappedOptions| - 1, padding / 2.0))
    ensures r.height == Times(|r.lines|, lineHeight) + Times(TotalLines(r.wrappedOptions), lineHeight)
                        + (if |r.wrappedOptions| == 0 then padding * 2.0
                           else Times(|r.wrappedOptions| - 1, padding / 2.0) + padding * 3.0)
  {
    SumHeightsIsLines(r.wrappedOptions, lineHeight);
  }

  lemma HeightFromParts(r: BubbleMetrics, m: Measurer, options: seq<string>, maxWidth: real,
                        lineHeight: real, padding: real)
    requires r.wrappedOptions == WrapOptions(m, options, maxWidth, lineHeight)
    requires r.height == BubbleHeight(Times(|r.lines|, lineHeight), r.wrappedOptions, padding)
    requires r.optionsHeight == OptionsHeight(r.wrappedOptions, padding)
    ensures r.optionsHeight == (if |r.wrappedOptions| == 0 then 0.0
                                else Times(TotalLines(r.wrappedOptions), lineHeight)
                                     + Times(|r.wrappedOptions| - 1, padding / 2.0))
    ensures r.height == Times(|r.lines|, lineHeight) + Times(TotalLines(r.wrappedOptions), lineHeight)
                        + (if |r.wrappedOptions| == 0 then padding * 2.0
                           else Times(|r.wrappedOptions| - 1, padding / 2.0) + padding * 3.0)
  {
    WrapOptionsHeights(m, options, maxWidth, lineHeight);
    HeightClosedForm(r, padding, lineHeight);
  }

  /** The bubble's height: one line height for every message and option line,
      plus `padding / 2` between consecutive options, plus three paddings with
      options or two without. */
  lemma MetricsHeight(m: Measurer, message: string, options: seq<string>,
                      maxCanvasWidth: real, fontSize: real, padding: real)
    ensures var r := CalculateBubbleMetrics(m, message, options, maxCanvasWidth, fontSize, padding);
      var lineHeight := LineHeight(fontSize);
      && r.optionsHeight == (if |options| == 0 then 0.0
                             else Times(TotalLines(r.wrappedOptions), lineHeight)
                                  + Times(|r.wrappedOptions| - 1, padding / 2.0))
      && r.height == Times(|r.lines|, lineHeight) + Times(TotalLines(r.wrappedOptions), lineHeight)
                     + (if |options| == 0 then padding * 2.0
                        else Times(|r.wrappedOptions| - 1, padding / 2.0) + padding * 3.0)
  {
    var r := CalculateBubbleMetrics(m, message, options, maxCanvasWidth, fontSize, padding);
    MetricsParts(m, message, options, maxCanvasWidth, fontSize, padding);
    HeightFromParts(r, m, SanitizeAll(options), OptionWrapWidth(m, message, options, maxCanvasWidth, padding),
                    LineHeight(fontSize), padding);
  }

  /** The bubble is as wide as its content needs, never wider than the room
      beside the mascot allows: it leaves two paddings around every message
      paragraph and every option with its marker, up to the cap, and reaches
      either the cap or the widest of them. */
  lemma MetricsWidth(m: Measurer, message: string, options: seq<string>,
                     maxCanvasWidth: real, fontSize: real, padding: real)
    ensures var r := CalculateBubbleMetrics(m, message, options, maxCanvasWidth, fontSize, padding);
      var cap := maxCanvasWidth - MascotReserve;
      var ps := Paragraphs(message);
      && r.width <= cap + padding * 2.0
      && (forall k :: 0 <= k < |ps| ==> r.width >= Min(cap, m(ps[k]) + padding * 2.0) + padding * 2.0)
      && (forall j :: 0 <= j < |options| ==>
            r.width >= Min(cap, m(Sanitize(options[j])) + MarkerAllowance + padding * 2.0) + padding * 2.0)
      && (|| r.width == cap + padding * 2.0
          || (exists k :: 0 <= k < |ps| && r.width == m(ps[k]) + padding * 4.0)
          || (exists j :: 0 <= j < |options| &&
                r.width == m(Sanitize(options[j])) + MarkerAllowance + padding * 4.0))
  {
    var opts := SanitizeAll(options);
    var tw := GetMaxTextWidth(m, Sanitize(message), opts);
    SanitizeIdempotent(message);
    forall j | 0 <= j < |options|
      ensures Sanitize(opts[j]) == Sanitize(options[j])
    {
      SanitizeIdempotent(options[j]);
    }
  }

  /** A wider canvas never makes the bubble narrower. */
  lemma MetricsWidthMonotone(m: Measurer, message: string, options: seq<string>,
                             narrow: real, wide: real, fontSize: real, padding: real)
    requires narrow <= wide
    ensures CalculateBubbleMetrics(m, message, options, narrow, fontSize, padding).width
         <= CalculateBubbleMetrics(m, message, options, wide, fontSize, padding).width
  {
  }

  /** With a canvas at least as wide as the mascot reserve and non-negative
      font size and padding, the bubble has non-negative size: at least two
      paddings each way. */
  lemma MetricsNonNegative(m: Measurer, message: string, options: seq<string>,
                           maxCanvasWidth: real, fontSize: real, padding: real)
    requires maxCanvasWidth >= MascotReserve && fontSize >= 0.0 && padding >= 0.0
    ensures var r := CalculateBubbleMetrics(m, message, options, maxCanvasWidth, fontSize, padding);
      r.width >= padding * 2.0 && r.height >= padding * 2.0 && r.optionsHeight >= 0.0
  {
    MetricsHeight(m, message, options, maxCanvasWidth, fontSize, padding);
  }

  /** When the canvas leaves room for two paddings beside the mascot, the
      bubble is at least four paddings wide: the measured text width is never
      negative, as there is always at least one paragraph to measure. */
  lemma MetricsMinimumWidth(m: Measurer, message: string, options: seq<string>,
                            maxCanvasWidth: real, fontSize: real, padding: real)
    requires maxCanvasWidth - MascotReserve >= padding * 2.0
    ensures CalculateBubbleMetrics(m, message, options, maxCanvasWidth, fontSize, padding).width >= padding * 4.0
  {
    MetricsParts(m, message, options, maxCanvasWidth, fontSize, padding);
    var ps := Paragraphs(Sanitize(message));
    assert m(ps[0]) >= 0.0;
  }

  /** When the content fits beside the mascot, nothing is wrapped: the message
      yields one line per paragraph (empty for a blank one), and every option
      without a newline yields exactly one line. */
  lemma NoWrapWhenUncapped(m: Measurer, message: string, options: seq<string>,
                           maxCanvasWidth: real, fontSize: real, padding: real)
    requires GetMaxTextWidth(m, Sanitize(message), SanitizeAll(options)) + padding * 2.0
             <= maxCanvasWidth - MascotReserve
    ensures var r := CalculateBubbleMetrics(m, message, options, maxCanvasWidth, fontSize, padding);
      var ps := Paragraphs(message);
      && |r.lines| == |ps|
      && (forall k :: 0 <= k < |ps| ==> r.lines[k] == Unwrapped(ps[k]))
      && (forall j :: 0 <= j < |options| && '\n' !in Sanitize(options[j]) ==>
            r.wrappedOptions[j].lines == [Unwrapped(Sanitize(options[j]))])
  {
    var r := CalculateBubbleMetrics(m, message, options, maxCanvasWidth, fontSize, padding);
    var opts := SanitizeAll(options);
    var tw := GetMaxTextWidth(m, Sanitize(message), opts);
    var mw := MessageWrapWidth(m, message, options, maxCanvasWidth, padding);
    var ow := OptionWrapWidth(m, message, options, maxCanvasWidth, padding);
    assert mw == tw && ow == tw - MarkerIndent;
    MetricsBlocks(m, message, options, maxCanvasWidth, fontSize, padding);
    SanitizeIdempotent(message);
    WrapParagraphsNoWrap(m, mw, Paragraphs(message));
    forall j | 0 <= j < |options| && '\n' !in Sanitize(options[j])
      ensures r.wrappedOptions[j].lines == [Unwrapped(Sanitize(options[j]))]
    {
      SanitizeIdempotent(options[j]);
      assert opts[j] == Sanitize(options[j]);
      OneLineFits(m, Sanitize(options[j]), ow);
    }
  }

  /** A sanitized text without newlines that fits is a single unwrapped line. */
  lemma OneLineFits(m: Measurer, text: string, maxWidth: real)
    requires Sanitize(text) == text && '\n' !in text && m(text) <= maxWidth
    ensures WrapText(m, text, maxWidth) == [Unwrapped(text)]
  {
    SplitNoSeparator(text, '\n');
    WrapFittingParagraph(m, maxWidth, text);
    assert WrapParagraphs(m, maxWidth, [text])
        == WrapParagraph(m, maxWidth, text) + WrapParagraphs(m, maxWidth, []);
  }
}

=== FILE: measure.dfy ===
/** The one foreign dependency of the layout: `ctx.measureText(s).width` of
    the canvas backend at the fixed 24px font. It is taken as a parameter of
    every operation that measures, so the model holds for any backend that
    reports consistent, non-negative widths. */
module Measure {

  /** A text measurer: a deterministic, non-negative width for every string. */
  type Measurer = m: string -> real | forall s :: m(s) >= 0.0
    witness (s: string) => 0.0

  function Max(a: real, b: real): (r: real)
    ensures r >= a && r >= b
    ensures r == a || r == b
  {
    if a >= b then a else b
  }

  function Min(a: real, b: real): (r: real)
    ensures r <= a && r <= b
    ensures r == a || r == b
  {
    if a <= b then a else b
  }

  /** `n * x` for a count `n`, written as repeated addition so that the
      solver's reasoning about heights stays linear. */
  function Times(n: nat, x: real): (r: real)
    ensures x >= 0.0 ==> r >= 0.0
  {
    if n == 0 then 0.0 else Times(n - 1, x) + x
  }

  /** `Times` is multiplication. */
  lemma {:induction false} TimesIsProduct(n: nat, x: real)
    ensures Times(n, x) == n as real * x
  {
    if n > 0 {
      TimesIsProduct(n - 1, x);
      assert (n - 1) as real * x + x == n as real * x;
    }
  }

  /** `Times` distributes over a sum of counts. */
  lemma {:induction false} TimesAdd(a: nat, b: nat, x: real)
    ensures Times(a + b, x) == Times(a, x) + Times(b, x)
  {
    if b > 0 {
      TimesAdd(a, b - 1, x);
    }
  }

  /** `Times` grows with the count. */
  lemma {:induction false} TimesMonotone(a: nat, b: nat, x: real)
    requires a <= b && x >= 0.0
    ensures Times(a, x) <= Times(b, x)
    decreases b
  {
    if a < b {
      TimesMonotone(a, b - 1, x);
    }
  }
}

=== FILE: optional.dfy ===
/** A value that may be missing: JavaScript's `undefined`/`null` slots,
    an absent query parameter, the editor's "not editing" index. */
module Optional {

  datatype Option<+T> = None | Some(value: T) {

    /** The value, or `default` when there is none. */
    function GetOr(default: T): (r: T)
      ensures Some? ==> r == value
      ensures None? ==> r == default
    {
      match this
      case Some(v) => v
      case None => default
    }
  }
}

=== FILE: publish.dfy ===
/** The validator of routes/api/publish.ts: it takes `text` and `options` from
    a JSON body and lets a publication through only when both are present and
    well-typed. */
module Publish {

  /** A parsed JSON value. Objects map each key to its value (a repeated key
      keeps its last value, as `JSON.parse` does). */
  datatype Json =
    | JNull
    | JBool(b: bool)
    | JNum(n: real)
    | JStr(s: string)
    | JArr(items: seq<Json>)
    | JObj(fields: map<string, Json>)

  /** A property read: `undefined` or a value. */
  datatype Field = Undefined | Defined(value: Json)

  datatype Outcome =
    | Published(text: string, options: seq<string>)
    | BadRequest(message: string)
      /** Destructuring `null` throws before any check runs. */
    | Thrown

  const MissingFields: string := "Missing required fields"
  const InvalidInput: string := "Invalid input"

  /** Reading property `key` of a parsed body. Only objects carry the two keys
      the validator reads; the other values have no such property. */
  function Member(body: Json, key: string): (r: Field)
    ensures r.Defined? <==> body.JObj? && key in body.fields
  {
    if body.JObj? && key in body.fields then Defined(body.fields[key]) else Undefined
  }

  /** JavaScript truthiness: `undefined`, `null`, `false`, `0` and `""` are
      falsy; every other value, empty arrays and objects included, is truthy. */
  predicate Truthy(f: Field) {
    match f
    case Undefined => false
    case Defined(v) =>
      match v
      case JNull => false
      case JBool(b) => b
      case JNum(n) => n != 0.0
      case JStr(s) => s != ""
      case JArr(_) => true
      case JObj(_) => true
  }

  /** The strings of an array every item of which is a string. */
  function StringItems(items: seq<Json>): (r: seq<string>)
    requires forall i :: 0 <= i < |items| ==> items[i].JStr?
    ensures |r| == |items|
    ensures forall i :: 0 <= i < |items| ==> JStr(r[i]) == items[i]
  {
    if |items| == 0 then [] else [items[0].s] + StringItems(items[1..])
  }

  /** The whole handler less the JSON parsing and the store: the presence
      check first, then the type check, then publication. */
  function Validate(body: Json): (r: Outcome)
    ensures r.BadRequest? ==> r.message == MissingFields || r.message == InvalidInput
    ensures r.Thrown? <==> body == JNull
  {
    if body == JNull then Thrown
    else
      var text := Member(body, "text");
      var options := Member(body, "options");
      if !Truthy(text) || !Truthy(options) then BadRequest(MissingFields)
      else if !text.value.JStr? || !options.value.JArr?
              || exists i :: 0 <= i < |options.value.items| && !options.value.items[i].JStr?
      then BadRequest(InvalidInput)
      else Published(text.value.s, StringItems(options.value.items))
  }

  /** The HTTP status of an outcome that returns: 200 on publication, 400 on
      either refusal. */
  function Status(o: Outcome): (code: int)
    requires !o.Thrown?
    ensures code == 200 <==> o.Published?
    ensures code == 400 <==> o.BadRequest?
  {
    if o.Published? then 200 else 400
  }

  /** A body is published exactly when it is an object whose `text` is a
      non-empty string and whose `options` is an array of strings; the stored
      values are those strings. */
  lemma PublishedIff(body: Json, text: string, options: seq<string>)
    ensures Validate(body) == Published(text, options) <==>
              && body.JObj?
              && "text" in body.fields && body.fields["text"] == JStr(text) && text != ""
              && "options" in body.fields && body.fields["options"].JArr?
              && |body.fields["options"].items| == |options|
              && forall i :: 0 <= i < |options| ==> body.fields["options"].items[i] == JStr(options[i])
  {
    if body.JObj? && "text" in body.fields && "options" in body.fields && body.fields["options"].JArr? {
      var items := body.fields["options"].items;
      if |items| == |options| && forall i :: 0 <= i < |options| ==> items[i] == JStr(options[i]) {
        assert forall i :: 0 <= i < |items| ==> items[i].JStr?;
        var strs := StringItems(items);
        assert forall i :: 0 <= i < |items| ==> strs[i] == options[i];
      }
    }
  }

  /** Any object, or other non-null body, whose `text` or `options` is absent
      or falsy is refused as missing fields. */
  lemma FalsyIsMissing(body: Json)
    requires body != JNull
    requires !Truthy(Member(body, "text")) || !Truthy(Member(body, "options"))
    ensures Validate(body) == BadRequest(MissingFields)
  {
  }

  /** The presence check comes first: a falsy field is reported missing even
      when the other field has the wrong type. */
  lemma MissingBeforeInvalid(fields: map<string, Json>)
    requires "text" in fields && fields["text"] in {JNum(0.0), JStr(""), JBool(false), JNull}
    ensures Validate(JObj(fields)) == BadRequest(MissingFields)
  {
  }

  /** Once both fields are truthy, a `text` that is not a string or an
      `options` that is not an array, or both, is invalid, not missing. */
  lemma WrongTypeIsInvalid(fields: map<string, Json>)
    requires "text" in fields && Truthy(Defined(fields["text"]))
    requires "options" in fields && Truthy(Defined(fields["options"]))
    requires !fields["text"].JStr? || !fields["options"].JArr?
    ensures Validate(JObj(fields)) == BadRequest(InvalidInput)
  {
  }

  /** An array holding one non-string is invalid, wherever that item is. */
  lemma NonStringOptionIsInvalid(text: string, items: seq<Json>, k: nat)
    requires text != "" && k < |items| && !items[k].JStr?
    ensures Validate(JObj(map["text" := JStr(text), "options" := JArr(items)])) == BadRequest(InvalidInput)
  {
  }

  /** An empty options array is truthy, so it passes and publishes no options. */
  lemma EmptyOptionsPublished(text: string)
    requires text != ""
    ensures Validate(JObj(map["text" := JStr(text), "options" := JArr([])])) == Published(text, [])
  {
  }

  /** Only objects can pass: any other non-null body lacks both fields. */
  lemma NonObjectMissing(body: Json)
    requires !body.JObj? && body != JNull
    ensures Validate(body) == BadRequest(MissingFields)
  {
  }

  /** Fields other than `text` and `options` play no part. */
  lemma OtherFieldsIgnored(fields: map<string, Json>, key: string, v: Json)
    requires key != "text" && key != "options"
    ensures Validate(JObj(fields[key := v])) == Validate(JObj(fields))
  {
    assert Member(JObj(fields[key := v]), "text") == Member(JObj(fields), "text");
    assert Member(JObj(fields[key := v]), "options") == Member(JObj(fields), "options");
  }
}

=== FILE: render.dfy ===
/** `drawClippyMessage` of routes/r.ts as a pure function: instead of painting,
    it returns the outline of the speech bubble, the text and marker commands
    with their coordinates, and the footprint the caller sizes the canvas by.
    Colours, fonts, stroking and rasterisation are not modelled. */
module Render {
  import opened Strings
  import opened Measure
  import opened Sanitizer
  import opened Layout

  /** The fixed drawing settings. */
  const FontSize: real := 24.0
  const Padding: real := 20.0
  const CornerRadius: real := 10.0
  /** The bubble's top-left corner. */
  const BubbleX: real := 20.0
  const BubbleY: real := 20.0
  /** The tail below the bubble's bottom edge: it leaves the edge `TailNear`
      and `TailFar` to the left of the right edge and reaches `TailDepth` down. */
  const TailNear: real := 20.0
  const TailFar: real := 60.0
  const TailDepth: real := 30.0
  const MarkerRadius: real := 8.0
  /** The narrowest footprint ever reported. */
  const MinFootprint: real := 250.0
  /** The distance between consecutive baselines: 1.4 times the font size. */
  const LineSpacing: real := LineHeight(FontSize)

  /** Where message lines, option markers and option lines start horizontally. */
  const TextX: real := BubbleX + Padding
  const MarkerX: real := BubbleX + Padding + 10.0
  const OptionTextX: real := BubbleX + Padding + 30.0

  datatype Point = Point(x: real, y: real)

  /** The path commands that outline the bubble. */
  datatype PathCmd =
    | MoveTo(to: Point)
    | LineTo(to: Point)
    | ArcTo(corner: Point, to: Point, radius: real)
    | ClosePath

  /** What is painted inside the bubble: a string at a baseline point, or a
      filled radio marker around a centre. */
  datatype Ink =
    | Text(text: string, at: Point)
    | Marker(at: Point, radius: real)

  /** The commands emitted so far and the current baseline `currentY`. */
  datatype Pen = Pen(ink: seq<Ink>, y: real)

  /** What one call draws, and the footprint it reports. */
  datatype Picture = Picture(outline: seq<PathCmd>, ink: seq<Ink>, width: real, height: real)

  // ---------------------------------------------------------------------------
  // The outline.

  /** The rounded rectangle of width `w` and height `h` at the bubble's corner,
      with the tail on its bottom edge, in drawing order. It is one closed
      outline: a single move to its start, then lines and arcs only, the last
      arc coming back to the start, then the close. */
  function BubblePath(w: real, h: real): (r: seq<PathCmd>)
    ensures |r| == 13 && r[0].MoveTo? && r[|r| - 1] == ClosePath
    ensures forall i :: 0 < i < |r| - 1 ==> r[i].LineTo? || r[i].ArcTo?
    ensures r[|r| - 2].ArcTo? && r[|r| - 2].to == r[0].to
  {
    var left := BubbleX;
    var top := BubbleY;
    var right := BubbleX + w;
    var bottom := BubbleY + h;
    var r := CornerRadius;
    [ MoveTo(Point(left + r, top)),
      LineTo(Point(right - r, top)),
      ArcTo(Point(right, top), Point(right, top + r), r),
      LineTo(Point(right, bottom - r)),
      ArcTo(Point(right, bottom), Point(right - r, bottom), r),
      LineTo(Point(right - TailNear, bottom)),
      LineTo(Point(right - TailNear, bottom + TailDepth)),
      LineTo(Point(right - TailFar, bottom)),
      LineTo(Point(left + r, bottom)),
      ArcTo(Point(left, bottom), Point(left, bottom - r), r),
      LineTo(Point(left, top + r)),
      ArcTo(Point(left, top), Point(left + r, top), r),
      ClosePath ]
  }

  /** The points a path command names. */
  function CmdPoints(c: PathCmd): seq<Point> {
    match c
    case MoveTo(p) => [p]
    case LineTo(p) => [p]
    case ArcTo(p, q, _) => [p, q]
    case ClosePath => []
  }

  /** Point `p` lies in the closed box from `lo` to `hi`. */
  predicate InBox(p: Point, lo: Point, hi: Point) {
    lo.x <= p.x <= hi.x && lo.y <= p.y <= hi.y
  }

  // ---------------------------------------------------------------------------
  // The text.

  /** What `fillText` ends up showing for `line`: the line itself, or "?" when
      drawing it fails. */
  function Glyph(fails: string -> bool, line: string): string {
    if fails(line) then "?" else line
  }

  /** A line is drawn only when it is not blank. The source tests that the
      trimmed line is not empty; `DrawableIffTrimmed` shows the two agree. */
  predicate Drawable(line: string) {
    !IsBlank(line)
  }

  lemma DrawableIffTrimmed(line: string)
    ensures Drawable(line) <==> Trim(line) != ""
  {
    TrimEmptyIffBlank(line);
  }

  /** The number of drawable lines. */
  function Drawn(lines: seq<string>): nat {
    if |lines| == 0 then 0
    else Drawn(lines[..|lines| - 1]) + (if Drawable(lines[|lines| - 1]) then 1 else 0)
  }

  /** The `forEach` over the message lines from baseline `y`: every line first
      moves the baseline down one line, and then is drawn unless blank. So
      the baseline ends one line height per line below `y`, and one command
      is emitted per drawable line. */
  function DrawMessageLines(lines: seq<string>, fails: string -> bool, y: real): (r: Pen)
    ensures r.y == y + Times(|lines|, LineSpacing)
    ensures |r.ink| == Drawn(lines)
  {
    if |lines| == 0 then Pen([], y)
    else
      var before := DrawMessageLines(lines[..|lines| - 1], fails, y);
      var line := lines[|lines| - 1];
      var baseline := before.y + LineSpacing;
      Pen(before.ink + (if Drawable(line) then [Text(Glyph(fails, line), Point(TextX, baseline))] else []),
          baseline)
  }

  /** The lines of one option from baseline `y`: every line is drawn, blank or
      not, and then moves the baseline down. */
  function DrawOptionLines(lines: seq<string>, fails: string -> bool, y: real): Pen {
    if |lines| == 0 then Pen([], y)
    else
      var before := DrawOptionLines(lines[..|lines| - 1], fails, y);
      var line := lines[|lines| - 1];
      Pen(before.ink + [Text(Glyph(fails, line), Point(OptionTextX, before.y))], before.y + LineSpacing)
  }

  /** The centre of an option's marker when its first baseline is `y`. */
  function MarkerCentre(y: real): Point {
    Point(MarkerX, y - FontSize / 2.0 + 2.0)
  }

  /** One option: its marker, its lines, then half a padding of space. */
  function DrawBlock(block: WrappedBlock, fails: string -> bool, y: real): Pen {
    var lines := DrawOptionLines(block.lines, fails, y);
    Pen([Marker(MarkerCentre(y), MarkerRadius)] + lines.ink, lines.y + Padding / 2.0)
  }

  /** The `forEach` over the wrapped options from baseline `y`. */
  function DrawOptions(blocks: seq<WrappedBlock>, fails: string -> bool, y: real): Pen {
    if |blocks| == 0 then Pen([], y)
    else
      var before := DrawOptions(blocks[..|blocks| - 1], fails, y);
      var block := DrawBlock(blocks[|blocks| - 1], fails, before.y);
      Pen(before.ink + block.ink, block.y)
  }

  /** The metrics `drawClippyMessage` computes: of the sanitized inputs, at
      the fixed font size and padding. */
  function DrawMetrics(m: Measurer, message: string, maxWidth: real, options: seq<string>): BubbleMetrics {
    CalculateBubbleMetrics(m, Sanitize(message), SanitizeAll(options), maxWidth, FontSize, Padding)
  }

  /** The first message baseline is one line below this. */
  const TextTop: real := BubbleY + Padding * 0.6

  /** The first option baseline, two paddings below the last message line. */
  function OptionsTop(messageEnd: real): real {
    messageEnd + Padding * 2.0
  }

  /** Painting the bubble for given metrics: the message lines from
      `TextTop`, and, when there are options, the options two paddings below
      the last message baseline. That is one command per drawable message
      line, and with options one marker per option and one text per option
      line. */
  function Paint(metrics: BubbleMetrics, fails: string -> bool, withOptions: bool): (r: seq<Ink>)
    ensures |r| == Drawn(metrics.lines)
                   + (if withOptions then |metrics.wrappedOptions| + TotalLines(metrics.wrappedOptions) else 0)
  {
    var text := DrawMessageLines(metrics.lines, fails, TextTop);
    OptionsCursor(metrics.wrappedOptions, fails, OptionsTop(text.y));
    text.ink + (if withOptions then DrawOptions(metrics.wrappedOptions, fails, OptionsTop(text.y)).ink else [])
  }

  /** `drawClippyMessage(ctx, message, maxWidth, options)`. Drawing a line may
      fail, in which case "?" is drawn in its place. The footprint is the
      bubble's width plus its margin on both sides, but at least
      `MinFootprint`, by the bubble's height. */
  function DrawClippyMessage(m: Measurer, fails: string -> bool, message: string, maxWidth: real,
                             options: seq<string>): (r: Picture)
    ensures r.width >= MinFootprint
    ensures r.width >= DrawMetrics(m, message, maxWidth, options).width + BubbleX * 2.0
    ensures r.width == MinFootprint || r.width == DrawMetrics(m, message, maxWidth, options).width + BubbleX * 2.0
    ensures r.height == DrawMetrics(m, message, maxWidth, options).height
  {
    var metrics := DrawMetrics(m, message, maxWidth, options);
    Picture(BubblePath(metrics.width, metrics.height), Paint(metrics, fails, |options| > 0),
            Max(metrics.width + BubbleX * 2.0, MinFootprint), metrics.height)
  }

  // ---------------------------------------------------------------------------
  // Properties of the outline.

  /** The outline starts on the top edge just right of the top-left corner.
      For a bubble at least as wide as the tail and as high as a corner, every
      point it names lies between the bubble's corner and its far corner
      extended by the tail, and the tail's tip is the only point below the
      bottom edge. */
  lemma PathInsideBox(w: real, h: real)
    requires w >= TailFar && h >= CornerRadius
    ensures var path := BubblePath(w, h);
      && path[0] == MoveTo(Point(BubbleX + CornerRadius, BubbleY))
      && forall i, p :: 0 <= i < |path| && p in CmdPoints(path[i]) ==>
           && InBox(p, Point(BubbleX, BubbleY), Point(BubbleX + w, BubbleY + h + TailDepth))
           && (p.y > BubbleY + h ==> p == Point(BubbleX + w - TailNear, BubbleY + h + TailDepth))
  {
  }

  // ---------------------------------------------------------------------------
  // Properties of the message lines.

  lemma {:induction false} DrawnPrefix(lines: seq<string>, k: nat)
    requires k < |lines|
    ensures Drawn(lines[..k]) + (if Drawable(lines[k]) then 1 else 0) <= Drawn(lines)
    decreases |lines|
  {
    var n := |lines| - 1;
    assert Drawn(lines) == Drawn(lines[..n]) + (if Drawable(lines[n]) then 1 else 0);
    if k < n {
      DrawnPrefix(lines[..n], k);
      assert lines[..n][k] == lines[k];
      assert lines[..n][..k] == lines[..k];
    }
  }

  /** Message line k, when not blank, is drawn (or replaced by "?") at the
      message's left edge on the k+1-th baseline below `y`; it is the command
      that follows those of the drawable lines before it. */
  lemma {:induction false} MessageLineAt(lines: seq<string>, fails: string -> bool, y: real, k: nat)
    requires k < |lines| && Drawable(lines[k])
    ensures var ink := DrawMessageLines(lines, fails, y).ink;
      && Drawn(lines[..k]) < |ink|
      && ink[Drawn(lines[..k])] == Text(Glyph(fails, lines[k]), Point(TextX, y + Times(k + 1, LineSpacing)))
    decreases |lines|
  {
    var n := |lines| - 1;
    var before := DrawMessageLines(lines[..n], fails, y);
    if k < n {
      MessageLineAt(lines[..n], fails, y, k);
      assert lines[..n][k] == lines[k];
      assert lines[..n][..k] == lines[..k];
    } else {
      assert lines[..n] == lines[..k];
    }
  }

  /** Conversely, every message command is a drawable line at its baseline. */
  lemma {:induction false} MessageInkFromLines(lines: seq<string>, fails: string -> bool, y: real, i: nat)
    requires i < |DrawMessageLines(lines, fails, y).ink|
    ensures exists k :: 0 <= k < |lines| && Drawable(lines[k]) && i == Drawn(lines[..k])
              && DrawMessageLines(lines, fails, y).ink[i]
                 == Text(Glyph(fails, lines[k]), Point(TextX, y + Times(k + 1, LineSpacing)))
    decreases |lines|
  {
    var n := |lines| - 1;
    var ink := DrawMessageLines(lines, fails, y).ink;
    var k: nat;
    if i < Drawn(lines[..n]) {
      MessageInkFromLines(lines[..n], fails, y, i);
      var k' :| 0 <= k' < n && Drawable(lines[..n][k']) && i == Drawn(lines[..n][..k']);
      assert lines[..n][k'] == lines[k'];
      assert lines[..n][..k'] == lines[..k'];
      k := k';
    } else {
      assert Drawn(lines) == Drawn(lines[..n]) + (if Drawable(lines[n]) then 1 else 0);
      k := n;
      assert Drawable(lines[k]) && i == Drawn(lines[..k]);
    }
    MessageLineAt(lines, fails, y, k);
    assert ink[i] == Text(Glyph(fails, lines[k]), Point(TextX, y + Times(k + 1, LineSpacing)));
  }

  // ---------------------------------------------------------------------------
  // Properties of the options.

  /** Option line i is drawn at the option indent on the i-th baseline below
      `y`, blank or not; the baseline ends one line below the last. */
  lemma {:induction false} OptionLinesAt(lines: seq<string>, fails: string -> bool, y: real)
    ensures var pen := DrawOptionLines(lines, fails, y);
      && pen.y == y + Times(|lines|, LineSpacing)
      && |pen.ink| == |lines|
      && forall i :: 0 <= i < |lines| ==>
           pen.ink[i] == Text(Glyph(fails, lines[i]), Point(OptionTextX, y + Times(i, LineSpacing)))
  {
    if |lines| > 0 {
      var n := |lines| - 1;
      OptionLinesAt(lines[..n], fails, y);
      var pen := DrawOptionLines(lines, fails, y);
      forall i | 0 <= i < |lines|
        ensures pen.ink[i] == Text(Glyph(fails, lines[i]), Point(OptionTextX, y + Times(i, LineSpacing)))
      {
        if i < n {
          assert lines[..n][i] == lines[i];
        }
      }
    }
  }

  /** Where option j starts: below the lines and gaps of the options before it. */
  function BlockTop(blocks: seq<WrappedBlock>, y: real, j: nat): real
    requires j <= |blocks|
  {
    y + Times(TotalLines(blocks[..j]), LineSpacing) + Times(j, Padding / 2.0)
  }

  /** The options move the baseline down one line per option line and half a
      padding per option, and emit one marker per option and one text per
      option line. */
  lemma {:induction false} OptionsCursor(blocks: seq<WrappedBlock>, fails: string -> bool, y: real)
    ensures var pen := DrawOptions(blocks, fails, y);
      && pen.y == BlockTop(blocks, y, |blocks|)
      && |pen.ink| == |blocks| + TotalLines(blocks)
  {
    if |blocks| > 0 {
      var n := |blocks| - 1;
      OptionsCursor(blocks[..n], fails, y);
      OptionLinesAt(blocks[n].lines, fails, DrawOptions(blocks[..n], fails, y).y);
      assert blocks[..n + 1] == blocks;
      assert blocks[..n][..n] == blocks[..n];
      TimesAdd(TotalLines(blocks[..n]), |blocks[n].lines|, LineSpacing);
    }
  }

  /** The commands of the first options are not disturbed by later ones. */
  lemma OptionsExtend(blocks: seq<WrappedBlock>, fails: string -> bool, y: real, idx: nat)
    requires |blocks| > 0 && idx < |DrawOptions(blocks[..|blocks| - 1], fails, y).ink|
    ensures idx < |DrawOptions(blocks, fails, y).ink|
    ensures DrawOptions(blocks, fails, y).ink[idx] == DrawOptions(blocks[..|blocks| - 1], fails, y).ink[idx]
  {
  }

  /** The commands of the last option follow those of the others: its marker,
      then its lines. */
  lemma OptionsLast(blocks: seq<WrappedBlock>, fails: string -> bool, y: real, t: nat)
    requires |blocks| > 0 && t <= |blocks[|blocks| - 1].lines|
    ensures var n := |blocks| - 1;
      var before := DrawOptions(blocks[..n], fails, y);
      var ink := DrawOptions(blocks, fails, y).ink;
      && |before.ink| + t < |ink|
      && ink[|before.ink| + t] == (if t == 0 then Marker(MarkerCentre(before.y), MarkerRadius)
                                   else Text(Glyph(fails, blocks[n].lines[t - 1]),
                                             Point(OptionTextX, before.y + Times(t - 1, LineSpacing))))
  {
    var n := |blocks| - 1;
    var before := DrawOptions(blocks[..n], fails, y);
    OptionLinesAt(blocks[n].lines, fails, before.y);
  }

  /** Option j's marker comes after the commands of the options before it and
      is centred beside its first baseline `BlockTop`. */
  lemma {:induction false} OptionMarkerAt(blocks: seq<WrappedBlock>, fails: string -> bool, y: real, j: nat)
    requires j < |blocks|
    ensures var ink := DrawOptions(blocks, fails, y).ink;
      && j + TotalLines(blocks[..j]) < |ink|
      && ink[j + TotalLines(blocks[..j])] == Marker(MarkerCentre(BlockTop(blocks, y, j)), MarkerRadius)
    decreases |blocks|
  {
    OptionLineAt(blocks, fails, y, j, 0);
  }

  /** The command at option j's offset plus t is its marker when `t == 0`
      and its line `t - 1` otherwise, at the option indent on the baseline
      `t - 1` line heights below `BlockTop`. */
  ghost predicate PaintedAt(blocks: seq<WrappedBlock>, fails: string -> bool, y: real, j: nat, t: nat)
    requires j < |blocks| && t <= |blocks[j].lines|
  {
    var ink := DrawOptions(blocks, fails, y).ink;
    var top := BlockTop(blocks, y, j);
    && j + TotalLines(blocks[..j]) + t < |ink|
    && ink[j + TotalLines(blocks[..j]) + t]
       == (if t == 0 then Marker(MarkerCentre(top), MarkerRadius)
           else Text(Glyph(fails, blocks[j].lines[t - 1]), Point(OptionTextX, top + Times(t - 1, LineSpacing))))
  }

  /** Line i of option j comes right after its marker and the lines before it,
      at the option indent on the i-th baseline below `BlockTop`. The case
      `t == 0` is the marker itself, `t == i + 1` is line i. */
  lemma {:induction false} OptionLineAt(blocks: seq<WrappedBlock>, fails: string -> bool, y: real, j: nat, t: nat)
    requires j < |blocks| && t <= |blocks[j].lines|
    ensures var ink := DrawOptions(blocks, fails, y).ink;
      var top := BlockTop(blocks, y, j);
      && j + TotalLines(blocks[..j]) + t < |ink|
      && ink[j + TotalLines(blocks[..j]) + t]
         == (if t == 0 then Marker(MarkerCentre(top), MarkerRadius)
             else Text(Glyph(fails, blocks[j].lines[t - 1]), Point(OptionTextX, top + Times(t - 1, LineSpacing))))
    decreases |blocks|
  {
    var n := |blocks| - 1;
    if j < n {
      OptionLineAt(blocks[..n], fails, y, j, t);
      assert blocks[..n][j] == blocks[j];
      OptionLineEarlier(blocks, fails, y, j, t);
    } else {
      OptionLineLast(blocks, fails, y, t);
    }
    assert PaintedAt(blocks, fails, y, j, t);
  }

  /** Adding an option after option j leaves option j's commands in place. */
  lemma OptionLineEarlier(blocks: seq<WrappedBlock>, fails: string -> bool, y: real, j: nat, t: nat)
    requires |blocks| > 0 && j < |blocks| - 1 && t <= |blocks[j].lines|
    requires PaintedAt(blocks[..|blocks| - 1], fails, y, j, t)
    ensures PaintedAt(blocks, fails, y, j, t)
  {
    var n := |blocks| - 1;
    var before := DrawOptions(blocks[..n], fails, y);
    var idx := j + TotalLines(blocks[..j]) + t;
    assert blocks[..n][j] == blocks[j];
    assert blocks[..n][..j] == blocks[..j];
    assert BlockTop(blocks[..n], y, j) == BlockTop(blocks, y, j);
    assert idx < |before.ink|;
    OptionsExtend(blocks, fails, y, idx);
  }

  /** The last option's commands start where the others' end. */
  lemma OptionLineLast(blocks: seq<WrappedBlock>, fails: string -> bool, y: real, t: nat)
    requires |blocks| > 0 && t <= |blocks[|blocks| - 1].lines|
    ensures PaintedAt(blocks, fails, y, |blocks| - 1, t)
  {
    var n := |blocks| - 1;
    OptionsCursor(blocks[..n], fails, y);
    assert blocks[..n][..n] == blocks[..n];
    OptionsLast(blocks, fails, y, t);
  }

  /** The lines of a prefix of the blocks are no more than those of all. */
  lemma {:induction false} TotalLinesPrefix(blocks: seq<WrappedBlock>, j: nat)
    requires j <= |blocks|
    ensures TotalLines(blocks[..j]) <= TotalLines(blocks)
    decreases |blocks|
  {
    if j < |blocks| {
      var n := |blocks| - 1;
      assert blocks[..n][..j] == blocks[..j];
      TotalLinesPrefix(blocks[..n], j);
    } else {
      assert blocks[..j] == blocks;
    }
  }

  // ---------------------------------------------------------------------------
  // Properties of a whole drawing.

  /** Message line k, when not blank, is painted at
      (`BubbleX + Padding`, `BubbleY + 0.6 Padding + (k + 1) LineSpacing`),
      after the drawable lines before it: blank lines are skipped but still
      move the baseline. */
  lemma PaintMessageLineAt(metrics: BubbleMetrics, fails: string -> bool, withOptions: bool, k: nat)
    requires k < |metrics.lines| && Drawable(metrics.lines[k])
    ensures var ink := Paint(metrics, fails, withOptions);
      && Drawn(metrics.lines[..k]) < |ink|
      && ink[Drawn(metrics.lines[..k])]
         == Text(Glyph(fails, metrics.lines[k]), Point(BubbleX + Padding, BubbleY + Padding * 0.6 + Times(k + 1, LineSpacing)))
  {
    MessageLineAt(metrics.lines, fails, TextTop, k);
  }

  /** Conversely, every painted command before the options is a drawable
      message line at its baseline. */
  lemma PaintMessageInk(metrics: BubbleMetrics, fails: string -> bool, withOptions: bool, i: nat)
    requires i < Drawn(metrics.lines)
    ensures var ink := Paint(metrics, fails, withOptions);
      && i < |ink|
      && exists k :: 0 <= k < |metrics.lines| && Drawable(metrics.lines[k]) && i == Drawn(metrics.lines[..k])
           && ink[i] == Text(Glyph(fails, metrics.lines[k]),
                             Point(BubbleX + Padding, BubbleY + Padding * 0.6 + Times(k + 1, LineSpacing)))
  {
    MessageInkFromLines(metrics.lines, fails, TextTop, i);
  }

  /** The top of option j's block, with every offset written out. */
  function OptionTop(metrics: BubbleMetrics, j: nat): real
    requires j <= |metrics.wrappedOptions|
  {
    BubbleY + Padding * 0.6 + Times(|metrics.lines|, LineSpacing) + Padding * 2.0
      + Times(TotalLines(metrics.wrappedOptions[..j]), LineSpacing) + Times(j, Padding / 2.0)
  }

  /** Where command t of option j (its marker for t = 0, its line t - 1
      otherwise) falls in the painted sequence: after the drawn message lines,
      one marker per earlier option, and the earlier options' lines. */
  function OptionIndex(metrics: BubbleMetrics, j: nat, t: nat): nat
    requires j <= |metrics.wrappedOptions|
  {
    Drawn(metrics.lines) + j + TotalLines(metrics.wrappedOptions[..j]) + t
  }

  /** With options, option j follows all message lines and the options before
      it. Its first baseline is two paddings below the last message baseline,
      plus one line per earlier option line and half a padding per earlier
      option. Its marker is centred beside that baseline (`t == 0`) and its
      lines follow at the option indent (`t == i + 1` for line i). */
  lemma PaintOptionAt(metrics: BubbleMetrics, fails: string -> bool, j: nat, t: nat)
    requires j < |metrics.wrappedOptions| && t <= |metrics.wrappedOptions[j].lines|
    ensures var ink := Paint(metrics, fails, true);
      var top := OptionTop(metrics, j);
      && OptionIndex(metrics, j, t) < |ink|
      && ink[OptionIndex(metrics, j, t)]
         == (if t == 0 then Marker(MarkerCentre(top), MarkerRadius)
             else Text(Glyph(fails, metrics.wrappedOptions[j].lines[t - 1]), Point(OptionTextX, top + Times(t - 1, LineSpacing))))
  {
    var text := DrawMessageLines(metrics.lines, fails, TextTop);
    OptionLineAt(metrics.wrappedOptions, fails, OptionsTop(text.y), j, t);
  }

  /** A drawing paints the metrics of its sanitized inputs, with the options
      part exactly when there are options. */
  lemma DrawPaints(m: Measurer, fails: string -> bool, message: string, maxWidth: real, options: seq<string>)
    ensures var metrics := DrawMetrics(m, message, maxWidth, options);
      var r := DrawClippyMessage(m, fails, message, maxWidth, options);
      && r.outline == BubblePath(metrics.width, metrics.height)
      && r.ink == Paint(metrics, fails, |options| > 0)
      && |metrics.wrappedOptions| == |options|
  {
  }

  /** Without options only message lines are painted: one text per line
      that is not blank, and no marker. */
  lemma DrawWithoutOptions(m: Measurer, fails: string -> bool, message: string, maxWidth: real, options: seq<string>)
    requires |options| == 0
    ensures var r := DrawClippyMessage(m, fails, message, maxWidth, options);
      && |r.ink| == Drawn(DrawMetrics(m, message, maxWidth, options).lines)
      && forall i :: 0 <= i < |r.ink| ==> r.ink[i].Text? && r.ink[i].at.x == TextX
  {
    var metrics := DrawMetrics(m, message, maxWidth, options);
    DrawPaints(m, fails, message, maxWidth, options);
    forall i | 0 <= i < |Paint(metrics, fails, false)|
      ensures Paint(metrics, fails, false)[i].Text? && Paint(metrics, fails, false)[i].at.x == TextX
    {
      PaintMessageInk(metrics, fails, false, i);
    }
  }

  /** With options, one marker per option and one text per option line follow
      the message lines, and option j's marker is centred beside the first
      baseline of its block, after the drawn message lines and the markers
      and lines of the options before it. */
  lemma DrawOptionMarker(m: Measurer, fails: string -> bool, message: string, maxWidth: real,
                         options: seq<string>, j: nat)
    requires j < |options|
    ensures var metrics := DrawMetrics(m, message, maxWidth, options);
      var r := DrawClippyMessage(m, fails, message, maxWidth, options);
      && |metrics.wrappedOptions| == |options|
      && |r.ink| == Drawn(metrics.lines) + |options| + TotalLines(metrics.wrappedOptions)
      && OptionIndex(metrics, j, 0) < |r.ink|
      && r.ink[OptionIndex(metrics, j, 0)] == Marker(MarkerCentre(OptionTop(metrics, j)), MarkerRadius)
  {
    var metrics := DrawMetrics(m, message, maxWidth, options);
    DrawPaints(m, fails, message, maxWidth, options);
    PaintOptionAt(metrics, fails, j, 0);
  }

  /** A painted command lies inside a bubble of height `height`: a text's
      baseline strictly between the top and bottom edges, a marker's whole
      disc strictly between them. */
  predicate WithinBubble(c: Ink, height: real) {
    match c
    case Text(_, at) => BubbleY < at.y < BubbleY + height
    case Marker(at, radius) => BubbleY < at.y - radius && at.y + radius < BubbleY + height
  }

  /** A painted command starts in one of the bubble's fixed columns: message
      text at the padding, option text at the option indent, and a marker of
      the marker radius centred between the two. */
  predicate InColumn(c: Ink) {
    match c
    case Text(_, at) => at.x == TextX || at.x == OptionTextX
    case Marker(at, radius) => at.x == MarkerX && radius == MarkerRadius
  }

  /** Every command past the message lines belongs to some option j: to its
      marker or one of its lines. */
  lemma {:induction false} LocateOptionCommand(blocks: seq<WrappedBlock>, idx: nat)
    requires idx < |blocks| + TotalLines(blocks)
    ensures exists j :: 0 <= j < |blocks| && j + TotalLines(blocks[..j]) <= idx <= j + TotalLines(blocks[..j]) + |blocks[j].lines|
    decreases |blocks|
  {
    var n := |blocks| - 1;
    assert blocks[..n + 1] == blocks;
    if idx < n + TotalLines(blocks[..n]) {
      LocateOptionCommand(blocks[..n], idx);
      var j :| 0 <= j < n && j + TotalLines(blocks[..n][..j]) <= idx <= j + TotalLines(blocks[..n][..j]) + |blocks[..n][j].lines|;
      assert blocks[..n][..j] == blocks[..j] && blocks[..n][j] == blocks[j];
    } else {
      assert n + TotalLines(blocks[..n]) <= idx <= n + TotalLines(blocks[..n]) + |blocks[n].lines|;
    }
  }

  /** Option line `before + t` (counting all option lines before it) still
      leaves a full line of the options' lines below it. */
  lemma OptionLineRoom(blocks: seq<WrappedBlock>, j: nat, t: nat)
    requires j < |blocks| && 1 <= t <= |blocks[j].lines|
    ensures Times(TotalLines(blocks[..j]), LineSpacing) + Times(t - 1, LineSpacing) + LineSpacing
         <= Times(TotalLines(blocks), LineSpacing)
  {
    var before := TotalLines(blocks[..j]);
    TotalLinesPrefix(blocks, j + 1);
    assert blocks[..j + 1][..j] == blocks[..j];
    TimesAdd(before, t - 1, LineSpacing);
    assert Times(before + (t - 1) + 1, LineSpacing) == Times(before + (t - 1), LineSpacing) + LineSpacing;
    TimesMonotone(before + (t - 1) + 1, TotalLines(blocks), LineSpacing);
  }

  /** The bubble height `calculateBubbleMetrics` gives: one line per message
      and option line, half a padding between options, and three paddings with
      options or two without. */
  predicate HasComputedHeight(metrics: BubbleMetrics) {
    metrics.height
      == Times(|metrics.lines|, LineSpacing) + Times(TotalLines(metrics.wrappedOptions), LineSpacing)
         + (if |metrics.wrappedOptions| == 0 then Padding * 2.0
            else Times(|metrics.wrappedOptions| - 1, Padding / 2.0) + Padding * 3.0)
  }

  lemma MessageInkInside(metrics: BubbleMetrics, fails: string -> bool, withOptions: bool, i: nat)
    requires HasComputedHeight(metrics)
    requires i < Drawn(metrics.lines)
    ensures i < |Paint(metrics, fails, withOptions)|
    ensures WithinBubble(Paint(metrics, fails, withOptions)[i], metrics.height)
    ensures InColumn(Paint(metrics, fails, withOptions)[i])
  {
    var ink := Paint(metrics, fails, withOptions);
    var lines := metrics.lines;
    PaintMessageInk(metrics, fails, withOptions, i);
    var k :| 0 <= k < |lines| && Drawable(lines[k]) && i == Drawn(lines[..k])
             && ink[i] == Text(Glyph(fails, lines[k]), Point(BubbleX + Padding, BubbleY + Padding * 0.6 + Times(k + 1, LineSpacing)));
    MessageBaselineInside(metrics, k);
  }

  /** The baseline of message line k lies inside the bubble. */
  lemma MessageBaselineInside(metrics: BubbleMetrics, k: nat)
    requires HasComputedHeight(metrics)
    requires k < |metrics.lines|
    ensures BubbleY < BubbleY + Padding * 0.6 + Times(k + 1, LineSpacing) < BubbleY + metrics.height
  {
    TimesMonotone(k + 1, |metrics.lines|, LineSpacing);
  }

  /** Option j's marker disc sits inside the bubble. */
  lemma OptionMarkerInside(metrics: BubbleMetrics, j: nat)
    requires HasComputedHeight(metrics)
    requires j < |metrics.wrappedOptions|
    ensures BubbleY < MarkerCentre(OptionTop(metrics, j)).y - MarkerRadius
    ensures MarkerCentre(OptionTop(metrics, j)).y + MarkerRadius < BubbleY + metrics.height
  {
    var blocks := metrics.wrappedOptions;
    TimesMonotone(j, |blocks| - 1, Padding / 2.0);
    TotalLinesPrefix(blocks, j);
    TimesMonotone(TotalLines(blocks[..j]), TotalLines(blocks), LineSpacing);
  }

  /** Line t of option j has its baseline inside the bubble. */
  lemma OptionTextInside(metrics: BubbleMetrics, j: nat, t: nat)
    requires HasComputedHeight(metrics)
    requires j < |metrics.wrappedOptions| && 1 <= t <= |metrics.wrappedOptions[j].lines|
    ensures BubbleY < OptionTop(metrics, j) + Times(t - 1, LineSpacing) < BubbleY + metrics.height
  {
    var blocks := metrics.wrappedOptions;
    TimesMonotone(j, |blocks| - 1, Padding / 2.0);
    OptionLineRoom(blocks, j, t);
  }

  lemma OptionInkInside(metrics: BubbleMetrics, fails: string -> bool, i: nat)
    requires HasComputedHeight(metrics)
    requires Drawn(metrics.lines) <= i < |Paint(metrics, fails, true)|
    ensures WithinBubble(Paint(metrics, fails, true)[i], metrics.height)
    ensures InColumn(Paint(metrics, fails, true)[i])
  {
    var ink := Paint(metrics, fails, true);
    var blocks := metrics.wrappedOptions;
    var idx := i - Drawn(metrics.lines);
    LocateOptionCommand(blocks, idx);
    var j :| 0 <= j < |blocks| && j + TotalLines(blocks[..j]) <= idx <= j + TotalLines(blocks[..j]) + |blocks[j].lines|;
    var t := idx - j - TotalLines(blocks[..j]);
    PaintOptionAt(metrics, fails, j, t);
    assert i == OptionIndex(metrics, j, t);
    if t == 0 {
      OptionMarkerInside(metrics, j);
    } else {
      OptionTextInside(metrics, j, t);
    }
  }

  /** Everything painted lies inside a bubble of the computed height, each
      command in its column. */
  lemma PaintInsideBubble(metrics: BubbleMetrics, fails: string -> bool, withOptions: bool)
    requires withOptions == (|metrics.wrappedOptions| > 0)
    requires HasComputedHeight(metrics)
    ensures forall i :: 0 <= i < |Paint(metrics, fails, withOptions)| ==>
              WithinBubble(Paint(metrics, fails, withOptions)[i], metrics.height)
              && InColumn(Paint(metrics, fails, withOptions)[i])
  {
    forall i | 0 <= i < |Paint(metrics, fails, withOptions)|
      ensures WithinBubble(Paint(metrics, fails, withOptions)[i], metrics.height)
      ensures InColumn(Paint(metrics, fails, withOptions)[i])
    {
      if i < Drawn(metrics.lines) {
        MessageInkInside(metrics, fails, withOptions, i);
      } else {
        OptionInkInside(metrics, fails, i);
      }
    }
  }

  /** `drawClippyMessage` paints every line and marker between the top and
      bottom edges of the bubble it outlines, each in its column. */
  lemma DrawInsideBubble(m: Measurer, fails: string -> bool, message: string, maxWidth: real, options: seq<string>)
    ensures var r := DrawClippyMessage(m, fails, message, maxWidth, options);
            forall i :: 0 <= i < |r.ink| ==> WithinBubble(r.ink[i], r.height) && InColumn(r.ink[i])
  {
    var metrics := DrawMetrics(m, message, maxWidth, options);
    DrawHasComputedHeight(m, fails, message, maxWidth, options);
    PaintInsideBubble(metrics, fails, |options| > 0);
  }

  /** The metrics `drawClippyMessage` uses have the closed-form height, and
      there are options to draw exactly when options were given. */
  lemma DrawHasComputedHeight(m: Measurer, fails: string -> bool, message: string, maxWidth: real, options: seq<string>)
    ensures HasComputedHeight(DrawMetrics(m, message, maxWidth, options))
    ensures (|options| > 0) == (|DrawMetrics(m, message, maxWidth, options).wrappedOptions| > 0)
  {
    DrawPaints(m, fails, message, maxWidth, options);
    MetricsHeight(m, Sanitize(message), SanitizeAll(options), maxWidth, FontSize, Padding);
  }
}

=== FILE: sanitize.dfy ===
/** `sanitizeText` of routes/r.ts: three regular-expression passes that reduce
    any string to printable ASCII and newlines. */
module Sanitizer {
  import opened Optional

  const EnDash: char := '\U{2013}'
  const EmDash: char := '\U{2014}'
  const Ellipsis: char := '\U{2026}'
  const LeftSingleQuote: char := '\U{2018}'
  const RightSingleQuote: char := '\U{2019}'
  const LeftDoubleQuote: char := '\U{201C}'
  const RightDoubleQuote: char := '\U{201D}'

  /** The replacement table: curly quotes, dashes and the ellipsis with their
      ASCII stand-ins. */
  function Replacement(c: char): Option<string> {
    if c == LeftSingleQuote || c == RightSingleQuote then Some("'")
    else if c == LeftDoubleQuote || c == RightDoubleQuote then Some("\"")
    else if c == EnDash || c == EmDash then Some("-")
    else if c == Ellipsis then Some("...")
    else None
  }

  /** Zero-width space, zero-width non-joiner, zero-width joiner and the byte
      order mark: the class of the first pass. */
  predicate IsInvisible(c: char) {
    ('\U{200B}' <= c <= '\U{200D}') || c == '\U{FEFF}'
  }

  /** The class of the second pass. It names the straight quotes, not the
      curly ones that key the table, so only the dashes and the ellipsis are
      ever converted. */
  predicate InReplaceClass(c: char) {
    c == '"' || c == '\'' || c == EnDash || c == EmDash || c == Ellipsis
  }

  /** The characters the third pass keeps: 0x20 to 0x7E and newline. */
  predicate IsKept(c: char) {
    (' ' <= c <= '~') || c == '\n'
  }

  /** First pass: delete the invisible characters. */
  function StripInvisible(s: string): (r: string)
    ensures forall i :: 0 <= i < |r| ==> !IsInvisible(r[i])
  {
    if |s| == 0 then ""
    else (if IsInvisible(s[0]) then "" else [s[0]]) + StripInvisible(s[1..])
  }

  /** The callback of the second pass: the table entry, or the character itself
      when the table has none. */
  function ReplaceChar(c: char): string {
    if InReplaceClass(c) then Replacement(c).GetOr([c]) else [c]
  }

  /** Second pass: replace every character of the class through the table. */
  function ReplaceSmart(s: string): string {
    if |s| == 0 then "" else ReplaceChar(s[0]) + ReplaceSmart(s[1..])
  }

  /** Third pass: delete everything that is not kept. */
  function KeepPrintable(s: string): (r: string)
    ensures forall i :: 0 <= i < |r| ==> IsKept(r[i])
    ensures |r| <= |s|
  {
    if |s| == 0 then ""
    else (if IsKept(s[0]) then [s[0]] else "") + KeepPrintable(s[1..])
  }

  /** `sanitizeText(text)`. */
  function Sanitize(s: string): (r: string)
    ensures forall i :: 0 <= i < |r| ==> IsKept(r[i])
  {
    KeepPrintable(ReplaceSmart(StripInvisible(s)))
  }

  // ---------------------------------------------------------------------------
  // A character-by-character reference for the three passes.

  /** What one input character becomes: itself if printable ASCII or newline,
      a hyphen for an en or em dash, three dots for an ellipsis, and nothing
      for anything else (invisible characters and curly quotes included). */
  function CharImage(c: char): string {
    if IsKept(c) then [c]
    else if c == EnDash || c == EmDash then "-"
    else if c == Ellipsis then "..."
    else ""
  }

  /** The reference sanitizer: the images of the characters, in order. */
  function Normalize(s: string): string {
    if |s| == 0 then "" else CharImage(s[0]) + Normalize(s[1..])
  }

  lemma {:induction false} ReplaceSmartAppend(a: string, b: string)
    ensures ReplaceSmart(a + b) == ReplaceSmart(a) + ReplaceSmart(b)
  {
    if |a| > 0 {
      assert (a + b)[1..] == a[1..] + b;
      ReplaceSmartAppend(a[1..], b);
    } else {
      assert a + b == b;
    }
  }

  lemma {:induction false} KeepPrintableAppend(a: string, b: string)
    ensures KeepPrintable(a + b) == KeepPrintable(a) + KeepPrintable(b)
  {
    if |a| > 0 {
      assert (a + b)[1..] == a[1..] + b;
      KeepPrintableAppend(a[1..], b);
    } else {
      assert a + b == b;
    }
  }

  lemma {:induction false} NormalizeAppend(a: string, b: string)
    ensures Normalize(a + b) == Normalize(a) + Normalize(b)
  {
    if |a| > 0 {
      assert (a + b)[1..] == a[1..] + b;
      NormalizeAppend(a[1..], b);
    } else {
      assert a + b == b;
    }
  }

  lemma {:induction false} KeepPrintableOfKept(s: string)
    requires forall i :: 0 <= i < |s| ==> IsKept(s[i])
    ensures KeepPrintable(s) == s
  {
    if |s| > 0 {
      KeepPrintableOfKept(s[1..]);
      assert [s[0]] + s[1..] == s;
    }
  }

  lemma ReplaceSmartOne(c: char)
    ensures ReplaceSmart([c]) == ReplaceChar(c)
  {
    assert ReplaceSmart([c]) == ReplaceChar(c) + ReplaceSmart([c][1..]);
    assert ReplaceChar(c) + "" == ReplaceChar(c);
  }

  lemma KeptCharImage(c: char)
    requires IsKept(c)
    ensures KeepPrintable(ReplaceChar(c)) == CharImage(c)
  {
    assert ReplaceChar(c) == [c];
    KeepPrintableOfKept([c]);
  }

  lemma DroppedCharImage(c: char)
    requires !IsKept(c) && c != EnDash && c != EmDash && c != Ellipsis
    ensures KeepPrintable(ReplaceChar(c)) == CharImage(c)
  {
    assert ReplaceChar(c) == [c];
    assert KeepPrintable([c]) == "" + KeepPrintable([c][1..]);
  }

  lemma ReplacedCharImage(c: char)
    requires c == EnDash || c == EmDash || c == Ellipsis
    ensures KeepPrintable(ReplaceChar(c)) == CharImage(c)
  {
    assert !IsKept(c);
    if c == Ellipsis {
      assert ReplaceChar(c) == "...";
      KeepPrintableOfKept("...");
    } else {
      assert ReplaceChar(c) == "-";
      KeepPrintableOfKept("-");
    }
  }

  /** The second and third passes turn a visible character into its image. */
  lemma VisibleCharImage(c: char)
    ensures KeepPrintable(ReplaceChar(c)) == CharImage(c)
  {
    if IsKept(c) {
      KeptCharImage(c);
    } else if c == EnDash || c == EmDash || c == Ellipsis {
      ReplacedCharImage(c);
    } else {
      DroppedCharImage(c);
    }
  }

  /** The three passes applied to a single character. */
  lemma PassesOnChar(c: char)
    ensures KeepPrintable(ReplaceSmart(if IsInvisible(c) then "" else [c])) == CharImage(c)
  {
    if !IsInvisible(c) {
      ReplaceSmartOne(c);
      VisibleCharImage(c);
    }
  }

  /** The three passes of `sanitizeText` act character by character: the
      result is the concatenation of the characters' images. */
  lemma {:induction false} SanitizeIsCharwise(s: string)
    ensures Sanitize(s) == Normalize(s)
  {
    if |s| > 0 {
      var head := if IsInvisible(s[0]) then "" else [s[0]];
      var stripped := StripInvisible(s[1..]);
      ReplaceSmartAppend(head, stripped);
      KeepPrintableAppend(ReplaceSmart(head), ReplaceSmart(stripped));
      PassesOnChar(s[0]);
      SanitizeIsCharwise(s[1..]);
    }
  }

  /** Sanitizing distributes over concatenation, so it never reorders. */
  lemma SanitizeAppend(a: string, b: string)
    ensures Sanitize(a + b) == Sanitize(a) + Sanitize(b)
  {
    SanitizeIsCharwise(a + b);
    SanitizeIsCharwise(a);
    SanitizeIsCharwise(b);
    NormalizeAppend(a, b);
  }

  /** A string of printable ASCII and newlines passes through unchanged. */
  lemma {:induction false} SanitizeKeepsPrintable(s: string)
    requires forall i :: 0 <= i < |s| ==> IsKept(s[i])
    ensures Sanitize(s) == s
  {
    SanitizeIsCharwise(s);
    NormalizeKept(s);
  }

  lemma {:induction false} NormalizeKept(s: string)
    requires forall i :: 0 <= i < |s| ==> IsKept(s[i])
    ensures Normalize(s) == s
  {
    if |s| > 0 {
      NormalizeKept(s[1..]);
      assert [s[0]] + s[1..] == s;
    }
  }

  /** Sanitizing twice is sanitizing once. */
  lemma SanitizeIdempotent(s: string)
    ensures Sanitize(Sanitize(s)) == Sanitize(s)
  {
    SanitizeKeepsPrintable(Sanitize(s));
  }

  /** A one-character string sanitizes to that character's image. */
  lemma SanitizeOneChar(c: char)
    ensures Sanitize([c]) == CharImage(c)
  {
    SanitizeIsCharwise([c]);
    assert Normalize([c]) == CharImage(c) + Normalize([c][1..]);
    assert CharImage(c) + "" == CharImage(c);
  }

  /** Dashes become a hyphen, the ellipsis three dots, and straight quotes
      stay. */
  lemma SanitizeReplacedChars()
    ensures Sanitize([EnDash]) == "-" && Sanitize([EmDash]) == "-"
    ensures Sanitize([Ellipsis]) == "..."
    ensures Sanitize(['\'']) == "'" && Sanitize(['"']) == "\""
  {
    SanitizeOneChar(EnDash);
    SanitizeOneChar(EmDash);
    SanitizeOneChar(Ellipsis);
    SanitizeOneChar('\'');
    SanitizeOneChar('"');
  }

  /** Curly quotes disappear: they key the replacement table but are outside
      the class that consults it, and they are not printable ASCII. */
  lemma SanitizeDropsCurlyQuotes()
    ensures Sanitize([LeftSingleQuote]) == "" && Sanitize([RightSingleQuote]) == ""
    ensures Sanitize([LeftDoubleQuote]) == "" && Sanitize([RightDoubleQuote]) == ""
  {
    SanitizeDropsChar(LeftSingleQuote);
    SanitizeDropsChar(RightSingleQuote);
    SanitizeDropsChar(LeftDoubleQuote);
    SanitizeDropsChar(RightDoubleQuote);
  }

  /** A character that is neither printable nor a dash nor the ellipsis
      sanitizes to nothing. */
  lemma SanitizeDropsChar(c: char)
    requires !IsKept(c) && c != EnDash && c != EmDash && c != Ellipsis
    ensures Sanitize([c]) == ""
  {
    SanitizeOneChar(c);
  }

  /** The zero-width characters and the byte order mark disappear. */
  lemma SanitizeDropsInvisible()
    ensures Sanitize(['\U{200B}']) == "" && Sanitize(['\U{200C}']) == ""
    ensures Sanitize(['\U{200D}']) == "" && Sanitize(['\U{FEFF}']) == ""
  {
    SanitizeDropsChar('\U{200B}');
    SanitizeDropsChar('\U{200C}');
    SanitizeDropsChar('\U{200D}');
    SanitizeDropsChar('\U{FEFF}');
  }
}

=== FILE: strings.dfy ===
/** The JavaScript string primitives the renderer and the editor rely on:
    `split` on a one-character separator, `join`, and `trim`. */
module Strings {

  /** The characters `String.prototype.trim` removes: ECMAScript WhiteSpace
      and LineTerminator code points. */
  predicate IsWhitespace(c: char) {
    || c == '\t' || c == '\n' || c == '\U{000B}' || c == '\U{000C}' || c == '\r'
    || c == ' ' || c == '\U{00A0}' || c == '\U{1680}'
    || ('\U{2000}' <= c <= '\U{200A}')
    || c == '\U{2028}' || c == '\U{2029}' || c == '\U{202F}' || c == '\U{205F}'
    || c == '\U{3000}' || c == '\U{FEFF}'
  }

  /** True when every character of `s` is whitespace (vacuously so for ""). */
  predicate IsBlank(s: string) {
    forall i :: 0 <= i < |s| ==> IsWhitespace(s[i])
  }

  /** `s.split(sep)` for a one-character separator: the maximal runs between
      separators, so there is always at least one piece and no piece holds `sep`. */
  function Split(s: string, sep: char): (pieces: seq<string>)
    ensures |pieces| >= 1
    ensures forall k :: 0 <= k < |pieces| ==> sep !in pieces[k]
  {
    if |s| == 0 then [""]
    else
      var rest := Split(s[1..], sep);
      if s[0] == sep then [""] + rest
      else [[s[0]] + rest[0]] + rest[1..]
  }

  /** `xs.join(sep)`: the pieces with one separator between neighbours. */
  function Join(xs: seq<string>, sep: char): string {
    if |xs| == 0 then ""
    else if |xs| == 1 then xs[0]
    else xs[0] + [sep] + Join(xs[1..], sep)
  }

  /** The number of occurrences of `c` in all pieces together. */
  function CountIn(xs: seq<string>, c: char): nat {
    if |xs| == 0 then 0 else multiset(xs[0])[c] + CountIn(xs[1..], c)
  }

  /** Drops the leading whitespace of `s`. */
  function TrimStart(s: string): (r: string)
    ensures |r| <= |s| && r == s[|s| - |r|..]
    ensures forall i :: 0 <= i < |s| - |r| ==> IsWhitespace(s[i])
    ensures |r| > 0 ==> !IsWhitespace(r[0])
  {
    if |s| > 0 && IsWhitespace(s[0]) then TrimStart(s[1..]) else s
  }

  /** Drops the trailing whitespace of `s`. */
  function TrimEnd(s: string): (r: string)
    ensures |r| <= |s| && r == s[..|r|]
    ensures forall i :: |r| <= i < |s| ==> IsWhitespace(s[i])
    ensures |r| > 0 ==> !IsWhitespace(r[|r| - 1])
  {
    if |s| > 0 && IsWhitespace(s[|s| - 1]) then TrimEnd(s[..|s| - 1]) else s
  }

  /** `s.trim()`. */
  function Trim(s: string): (r: string)
    ensures |r| > 0 ==> !IsWhitespace(r[0]) && !IsWhitespace(r[|r| - 1])
  {
    TrimEnd(TrimStart(s))
  }

  /** Joining adds one separator per gap to those the pieces already hold. */
  lemma {:induction false} JoinCount(xs: seq<string>, sep: char)
    requires |xs| > 0
    ensures multiset(Join(xs, sep))[sep] == |xs| - 1 + CountIn(xs, sep)
  {
    if |xs| > 1 {
      JoinCount(xs[1..], sep);
      assert multiset(xs[0] + [sep] + Join(xs[1..], sep))
          == multiset(xs[0]) + multiset([sep]) + multiset(Join(xs[1..], sep));
    }
  }

  // ---------------------------------------------------------------------------
  // Split and Join are inverse to each other.

  /** Joining a list whose head is `x` and whose tail is `zs`. */
  lemma JoinCons(x: string, zs: seq<string>, sep: char)
    ensures Join([x] + zs, sep) == if |zs| == 0 then x else x + [sep] + Join(zs, sep)
  {
    if |zs| > 0 {
      assert ([x] + zs)[1..] == zs;
    }
  }

  /** Appending one more piece adds one separator and that piece at the end. */
  lemma {:induction false} JoinSnoc(xs: seq<string>, x: string, sep: char)
    requires |xs| > 0
    ensures Join(xs + [x], sep) == Join(xs, sep) + [sep] + x
  {
    if |xs| == 1 {
      JoinCons(xs[0], [x], sep);
      assert xs + [x] == [xs[0]] + [x];
    } else {
      assert (xs + [x])[1..] == xs[1..] + [x];
      JoinSnoc(xs[1..], x, sep);
    }
  }

  /** Gluing `x` and `y` with the separator and joining is the same as joining
      them as two separate pieces. */
  lemma JoinMergeHead(x: string, y: string, zs: seq<string>, sep: char)
    ensures Join([x + [sep] + y] + zs, sep) == Join([x, y] + zs, sep)
  {
    JoinCons(x + [sep] + y, zs, sep);
    JoinCons(y, zs, sep);
    assert [x, y] + zs == [x] + ([y] + zs);
    JoinCons(x, [y] + zs, sep);
  }

  /** Joining the pieces of `split` gives back the original string. */
  lemma {:induction false} JoinSplit(s: string, sep: char)
    ensures Join(Split(s, sep), sep) == s
  {
    if |s| > 0 {
      var rest := Split(s[1..], sep);
      JoinSplit(s[1..], sep);
      if s[0] == sep {
        JoinCons("", rest, sep);
      } else {
        assert rest == [rest[0]] + rest[1..];
        JoinCons(rest[0], rest[1..], sep);
        JoinCons([s[0]] + rest[0], rest[1..], sep);
        assert s == [s[0]] + s[1..];
      }
    }
  }

  /** A string with no separator splits into itself alone. */
  lemma {:induction false} SplitNoSeparator(s: string, sep: char)
    requires sep !in s
    ensures Split(s, sep) == [s]
  {
    if |s| > 0 {
      SplitNoSeparator(s[1..], sep);
      assert [s[0]] + s[1..] == s;
    }
  }

  /** Splitting at the first separator. */
  lemma {:induction false} SplitAtSeparator(a: string, b: string, sep: char)
    requires sep !in a
    ensures Split(a + [sep] + b, sep) == [a] + Split(b, sep)
  {
    var s := a + [sep] + b;
    if |a| == 0 {
      assert s[1..] == b;
    } else {
      assert s[1..] == a[1..] + [sep] + b;
      SplitAtSeparator(a[1..], b, sep);
      assert [a[0]] + a[1..] == a;
    }
  }

  /** Splitting a join of separator-free pieces gives back the pieces. */
  lemma {:induction false} SplitJoin(xs: seq<string>, sep: char)
    requires |xs| > 0
    requires forall k :: 0 <= k < |xs| ==> sep !in xs[k]
    ensures Split(Join(xs, sep), sep) == xs
  {
    if |xs| == 1 {
      SplitNoSeparator(xs[0], sep);
    } else {
      SplitJoin(xs[1..], sep);
      SplitAtSeparator(xs[0], Join(xs[1..], sep), sep);
      assert [xs[0]] + xs[1..] == xs;
    }
  }

  /** `split` yields one piece more than there are separators. */
  lemma {:induction false} SplitCount(s: string, sep: char)
    ensures |Split(s, sep)| == multiset(s)[sep] + 1
  {
    if |s| > 0 {
      SplitCount(s[1..], sep);
      assert s == [s[0]] + s[1..];
      assert multiset(s) == multiset([s[0]]) + multiset(s[1..]);
    }
  }

  // ---------------------------------------------------------------------------
  // Trim.

  /** `trim` yields the empty string exactly on blank strings. */
  lemma TrimEmptyIffBlank(s: string)
    ensures Trim(s) == "" <==> IsBlank(s)
  {
    var t := TrimStart(s);
    if Trim(s) == "" {
      // `t` starts with a non-whitespace character unless it is empty, and
      // `TrimEnd` removed all of it, so it is empty.
      assert |t| == 0;
    } else {
      assert !IsWhitespace(Trim(s)[0]);
      assert Trim(s)[0] == t[0] == s[|s| - |t|];
    }
  }

  /** A string with no whitespace at either end is left alone by `trim`. */
  lemma TrimTrimmed(s: string)
    requires |s| > 0 ==> !IsWhitespace(s[0]) && !IsWhitespace(s[|s| - 1])
    ensures Trim(s) == s
  {
  }

  /** `trim` is idempotent. */
  lemma TrimIdempotent(s: string)
    ensures Trim(Trim(s)) == Trim(s)
  {
    TrimTrimmed(Trim(s));
  }
}

=== FILE: wrap.dfy ===
/** `wrapText` of routes/r.ts: split the sanitized text into paragraphs at
    newlines, keep a paragraph whole when it fits, and otherwise wrap it
    greedily at single spaces. */
module Wrap {
  import opened Strings
  import opened Sanitizer
  import opened Measure

  /** The greedy loop over the words of one paragraph. `current` is the line
      being built and `rest` the words not yet visited. A word joins the line
      when the extended line measures strictly less than `maxWidth`; otherwise
      the line is emitted and the word starts the next one. The final line is
      emitted only when it is not empty. */
  function GreedyLines(m: Measurer, maxWidth: real, current: string, rest: seq<string>): (lines: seq<string>)
    ensures current != "" || |rest| > 0 ==> |lines| > 0
    decreases |rest|
  {
    if |rest| == 0 then (if current != "" then [current] else [])
    else
      var candidate := current + " " + rest[0];
      if m(candidate) < maxWidth then GreedyLines(m, maxWidth, candidate, rest[1..])
      else [current] + GreedyLines(m, maxWidth, rest[0], rest[1..])
  }

  /** Wrapping one paragraph: a blank paragraph becomes one empty line, a
      paragraph that fits is one line, and any other is wrapped word by word
      starting from its first word. Every paragraph yields at least one line:
      a paragraph that is not blank has a first word or is that word. */
  function WrapParagraph(m: Measurer, maxWidth: real, p: string): (r: seq<string>)
    ensures |r| >= 1
  {
    if Trim(p) == "" then [""]
    else if m(p) <= maxWidth then [p]
    else
      var words := Split(p, ' ');
      JoinSplit(p, ' ');
      assert |words| == 1 ==> words[0] == p;
      GreedyLines(m, maxWidth, words[0], words[1..])
  }

  /** The single line a paragraph becomes when it is not wrapped. */
  function Unwrapped(p: string): string {
    if IsBlank(p) then "" else p
  }

  /** The lines of all paragraphs, paragraph by paragraph. */
  function WrapParagraphs(m: Measurer, maxWidth: real, ps: seq<string>): seq<string> {
    if |ps| == 0 then [] else WrapParagraph(m, maxWidth, ps[0]) + WrapParagraphs(m, maxWidth, ps[1..])
  }

  /** The newline-separated paragraphs of the sanitized text. */
  function Paragraphs(text: string): (ps: seq<string>)
    ensures |ps| >= 1
    ensures forall k :: 0 <= k < |ps| ==> '\n' !in ps[k]
  {
    Split(Sanitize(text), '\n')
  }

  /** `wrapText(ctx, text, maxWidth, fontSize)`; the font size is unused by
      the source and has no parameter here. There is at least one line per
      paragraph, so at least one line. */
  function WrapText(m: Measurer, text: string, maxWidth: real): (r: seq<string>)
    ensures |r| >= |Paragraphs(text)| >= 1
  {
    WrapParagraphsCount(m, maxWidth, Paragraphs(text));
    WrapParagraphs(m, maxWidth, Paragraphs(text))
  }

  // ---------------------------------------------------------------------------
  // The greedy loop.

  /** `line` is a run of consecutive words rejoined with single spaces. */
  ghost predicate IsWordRun(words: seq<string>, line: string) {
    exists a, b :: RunBetween(words, line, a, b)
  }

  /** `line` is the words `a` up to `b` rejoined with single spaces. */
  ghost predicate RunBetween(words: seq<string>, line: string, a: int, b: int) {
    0 <= a < b <= |words| && line == Join(words[a..b], ' ')
  }

  /** The kinds of line wrapping one paragraph may produce: empty, the whole
      paragraph when it fits, a line measuring strictly less than the limit,
      or one of the paragraph's space-separated words. */
  ghost predicate LineOfParagraph(m: Measurer, maxWidth: real, p: string, line: string) {
    || line == ""
    || (line == p && m(p) <= maxWidth)
    || m(line) < maxWidth
    || line in Split(p, ' ')
  }

  /** Every emitted line is a single word or measures strictly less than the
      limit: only the loop's own extensions, which passed the `<` test, ever
      produce a line that is not one of the words. */
  lemma {:induction false} GreedyWordOrFits(m: Measurer, maxWidth: real, words: seq<string>,
                                           current: string, rest: seq<string>)
    requires current in words || m(current) < maxWidth
    requires forall k :: 0 <= k < |rest| ==> rest[k] in words
    ensures forall line :: line in GreedyLines(m, maxWidth, current, rest) ==>
              line in words || m(line) < maxWidth
    decreases |rest|
  {
    if |rest| > 0 {
      var candidate := current + " " + rest[0];
      if m(candidate) < maxWidth {
        GreedyWordOrFits(m, maxWidth, words, candidate, rest[1..]);
      } else {
        GreedyWordOrFits(m, maxWidth, words, rest[0], rest[1..]);
      }
    }
  }

  /** Every line the loop emits from `current` and `rest` is a word run. */
  ghost predicate EmitsRuns(m: Measurer, maxWidth: real, words: seq<string>, current: string, rest: seq<string>) {
    forall line :: line in GreedyLines(m, maxWidth, current, rest) ==> IsWordRun(words, line)
  }

  /** Words are never split: starting from a line that is the run
      `words[a..i]`, every emitted line is a run of consecutive words. */
  lemma {:induction false} GreedyWordRuns(m: Measurer, maxWidth: real, words: seq<string>, a: nat, i: nat)
    requires a < i <= |words|
    ensures forall line :: line in GreedyLines(m, maxWidth, Join(words[a..i], ' '), words[i..]) ==>
              IsWordRun(words, line)
    decreases |words| - i
  {
    if i < |words| {
      if m(Join(words[a..i], ' ') + " " + words[i]) < maxWidth {
        GreedyWordRuns(m, maxWidth, words, a, i + 1);
        RunsAfterExtend(m, maxWidth, words, a, i);
      } else {
        GreedyWordRuns(m, maxWidth, words, i, i + 1);
        RunsAfterBreak(m, maxWidth, words, a, i);
      }
    } else {
      RunIsWordRun(words, a, i);
    }
    assert EmitsRuns(m, maxWidth, words, Join(words[a..i], ' '), words[i..]);
  }

  /** When word i joins the run `words[a..i]`, the line grows to the run
      `words[a..i + 1]`. */
  lemma RunsAfterExtend(m: Measurer, maxWidth: real, words: seq<string>, a: nat, i: nat)
    requires a < i < |words|
    requires m(Join(words[a..i], ' ') + " " + words[i]) < maxWidth
    requires EmitsRuns(m, maxWidth, words, Join(words[a..i + 1], ' '), words[i + 1..])
    ensures EmitsRuns(m, maxWidth, words, Join(words[a..i], ' '), words[i..])
  {
    var current := Join(words[a..i], ' ');
    GreedyStep(m, maxWidth, current, words[i..]);
    assert words[i..][1..] == words[i + 1..];
    assert words[a..i + 1] == words[a..i] + [words[i]];
    JoinSnoc(words[a..i], words[i], ' ');
  }

  /** When word i does not fit, the run `words[a..i]` is emitted and word i
      starts the run `words[i..i + 1]`. */
  lemma RunsAfterBreak(m: Measurer, maxWidth: real, words: seq<string>, a: nat, i: nat)
    requires a < i < |words|
    requires !(m(Join(words[a..i], ' ') + " " + words[i]) < maxWidth)
    requires EmitsRuns(m, maxWidth, words, Join(words[i..i + 1], ' '), words[i + 1..])
    ensures EmitsRuns(m, maxWidth, words, Join(words[a..i], ' '), words[i..])
  {
    var current := Join(words[a..i], ' ');
    GreedyStep(m, maxWidth, current, words[i..]);
    assert words[i..][1..] == words[i + 1..];
    assert words[i..i + 1] == [words[i]];
    RunIsWordRun(words, a, i);
  }

  /** One step of the greedy loop: the next word joins the line when the
      extended line measures less than the limit; otherwise the line is
      emitted first. */
  lemma GreedyStep(m: Measurer, maxWidth: real, current: string, rest: seq<string>)
    requires |rest| > 0
    ensures var candidate := current + " " + rest[0];
      GreedyLines(m, maxWidth, current, rest)
      == if m(candidate) < maxWidth then GreedyLines(m, maxWidth, candidate, rest[1..])
         else [current] + GreedyLines(m, maxWidth, rest[0], rest[1..])
  {
  }

  /** The words `a` up to `b` rejoined with spaces form a word run. */
  lemma RunIsWordRun(words: seq<string>, a: nat, b: nat)
    requires a < b <= |words|
    ensures IsWordRun(words, Join(words[a..b], ' '))
  {
    assert RunBetween(words, Join(words[a..b], ' '), a, b);
  }

  /** Nothing is lost: the emitted lines rejoined with spaces give back the
      starting line and the remaining words, except that a final empty word
      (a trailing space) that had to start a new line is dropped. */
  lemma {:induction false} GreedyLossless(m: Measurer, maxWidth: real, current: string, rest: seq<string>)
    ensures var lines := GreedyLines(m, maxWidth, current, rest);
      || Join(lines, ' ') == Join([current] + rest, ' ')
      || (|rest| > 0 && rest[|rest| - 1] == "" && Join(lines, ' ') + " " == Join([current] + rest, ' '))
    decreases |rest|
  {
    if |rest| > 0 {
      if m(current + " " + rest[0]) < maxWidth {
        GreedyLossless(m, maxWidth, current + " " + rest[0], rest[1..]);
        LosslessAfterExtend(m, maxWidth, current, rest);
      } else {
        GreedyLossless(m, maxWidth, rest[0], rest[1..]);
        LosslessAfterBreak(m, maxWidth, current, rest);
      }
    }
    assert Lossless(GreedyLines(m, maxWidth, current, rest), current, rest);
  }

  /** `lines` rejoined with spaces give back `current` followed by `rest`, up
      to a final empty word of `rest`. */
  ghost predicate Lossless(lines: seq<string>, current: string, rest: seq<string>) {
    || Join(lines, ' ') == Join([current] + rest, ' ')
    || (|rest| > 0 && rest[|rest| - 1] == "" && Join(lines, ' ') + " " == Join([current] + rest, ' '))
  }

  /** When the next word joins the line, the extended line and the remaining
      words rejoin to the same text. */
  lemma LosslessAfterExtend(m: Measurer, maxWidth: real, current: string, rest: seq<string>)
    requires |rest| > 0 && m(current + " " + rest[0]) < maxWidth
    requires Lossless(GreedyLines(m, maxWidth, current + " " + rest[0], rest[1..]), current + " " + rest[0], rest[1..])
    ensures Lossless(GreedyLines(m, maxWidth, current, rest), current, rest)
  {
    GreedyStep(m, maxWidth, current, rest);
    assert [rest[0]] + rest[1..] == rest;
    JoinMergeHead(current, rest[0], rest[1..], ' ');
    assert [current, rest[0]] + rest[1..] == [current] + rest;
    if |rest[1..]| > 0 {
      assert rest[1..][|rest[1..]| - 1] == rest[|rest| - 1];
    }
  }

  /** When the next word starts a new line, the emitted line is followed by
      a space and the rest. */
  lemma LosslessAfterBreak(m: Measurer, maxWidth: real, current: string, rest: seq<string>)
    requires |rest| > 0 && !(m(current + " " + rest[0]) < maxWidth)
    requires Lossless(GreedyLines(m, maxWidth, rest[0], rest[1..]), rest[0], rest[1..])
    ensures Lossless(GreedyLines(m, maxWidth, current, rest), current, rest)
  {
    var tail := GreedyLines(m, maxWidth, rest[0], rest[1..]);
    GreedyStep(m, maxWidth, current, rest);
    assert [rest[0]] + rest[1..] == rest;
    JoinCons(current, tail, ' ');
    JoinCons(current, rest, ' ');
    if |tail| == 0 {
      assert rest == [""];
    } else if |rest[1..]| > 0 {
      assert rest[1..][|rest[1..]| - 1] == rest[|rest| - 1];
    }
  }

  // ---------------------------------------------------------------------------
  // One paragraph.

  /** A whitespace-only paragraph yields exactly one empty line. */
  lemma WrapBlankParagraph(m: Measurer, maxWidth: real, p: string)
    requires IsBlank(p)
    ensures WrapParagraph(m, maxWidth, p) == [""]
  {
    TrimEmptyIffBlank(p);
  }

  /** A paragraph whose full width is within the limit is not wrapped: it
      yields itself, or one empty line when blank. */
  lemma WrapFittingParagraph(m: Measurer, maxWidth: real, p: string)
    requires m(p) <= maxWidth
    ensures WrapParagraph(m, maxWidth, p) == [Unwrapped(p)]
  {
    TrimEmptyIffBlank(p);
  }

  /** Each line of a paragraph is empty, the whole paragraph when it fits,
      a line measuring strictly less than the limit, or one of the
      paragraph's space-separated words (which may be wider than the limit). */
  lemma WrapParagraphLineKinds(m: Measurer, maxWidth: real, p: string)
    ensures forall line :: line in WrapParagraph(m, maxWidth, p) ==> LineOfParagraph(m, maxWidth, p, line)
  {
    if Trim(p) != "" && m(p) > maxWidth {
      var words := Split(p, ' ');
      GreedyWordOrFits(m, maxWidth, words, words[0], words[1..]);
    }
  }

  /** A paragraph that has to be wrapped is cut only at spaces: every line is
      a run of its consecutive words, and the lines rejoined with single spaces
      give back the paragraph, up to a trailing space whose empty final word
      started a new line. */
  lemma WrapParagraphKeepsWords(m: Measurer, maxWidth: real, p: string)
    requires !IsBlank(p) && m(p) > maxWidth
    ensures forall line :: line in WrapParagraph(m, maxWidth, p) ==> IsWordRun(Split(p, ' '), line)
    ensures var lines := WrapParagraph(m, maxWidth, p);
      Join(lines, ' ') == p || Join(lines, ' ') + " " == p
  {
    TrimEmptyIffBlank(p);
    var words := Split(p, ' ');
    assert words[0..1] == [words[0]];
    assert words[1..] == words[1..];
    GreedyWordRuns(m, maxWidth, words, 0, 1);
    GreedyLossless(m, maxWidth, words[0], words[1..]);
    assert [words[0]] + words[1..] == words;
    JoinSplit(p, ' ');
  }

  // ---------------------------------------------------------------------------
  // Whole texts.

  /** The lines of a list of paragraphs are those of its parts, in order. */
  lemma {:induction false} WrapParagraphsAppend(m: Measurer, maxWidth: real, ps: seq<string>, qs: seq<string>)
    ensures WrapParagraphs(m, maxWidth, ps + qs) == WrapParagraphs(m, maxWidth, ps) + WrapParagraphs(m, maxWidth, qs)
  {
    if |ps| == 0 {
      assert ps + qs == qs;
    } else {
      assert (ps + qs)[1..] == ps[1..] + qs;
      WrapParagraphsAppend(m, maxWidth, ps[1..], qs);
    }
  }

  /** Every paragraph yields at least one line, so there are at least as many
      lines as paragraphs. */
  lemma {:induction false} WrapParagraphsCount(m: Measurer, maxWidth: real, ps: seq<string>)
    ensures |WrapParagraphs(m, maxWidth, ps)| >= |ps|
  {
    if |ps| > 0 {
      WrapParagraphsCount(m, maxWidth, ps[1..]);
    }
  }

  /** Every line of the text comes from one of its paragraphs and is of one of
      the kinds `WrapParagraphLineKinds` lists. */
  lemma {:induction false} WrapParagraphsLineKinds(m: Measurer, maxWidth: real, ps: seq<string>)
    ensures forall line :: line in WrapParagraphs(m, maxWidth, ps) ==>
              exists k :: 0 <= k < |ps| && LineOfParagraph(m, maxWidth, ps[k], line)
  {
    if |ps| > 0 {
      WrapParagraphLineKinds(m, maxWidth, ps[0]);
      WrapParagraphsLineKinds(m, maxWidth, ps[1..]);
      forall line | line in WrapParagraphs(m, maxWidth, ps)
        ensures exists k :: 0 <= k < |ps| && LineOfParagraph(m, maxWidth, ps[k], line)
      {
        assert WrapParagraphs(m, maxWidth, ps) ==
               WrapParagraph(m, maxWidth, ps[0]) + WrapParagraphs(m, maxWidth, ps[1..]);
        if line in WrapParagraph(m, maxWidth, ps[0]) {
          assert LineOfParagraph(m, maxWidth, ps[0], line);
        } else {
          assert line in WrapParagraphs(m, maxWidth, ps[1..]);
          var k :| 0 <= k < |ps[1..]| && LineOfParagraph(m, maxWidth, ps[1..][k], line);
          assert ps[1..][k] == ps[k + 1];
        }
      }
    }
  }

  /** When every paragraph fits, nothing is wrapped: line k is paragraph k, or
      empty when paragraph k is blank. */
  lemma {:induction false} WrapParagraphsNoWrap(m: Measurer, maxWidth: real, ps: seq<string>)
    requires forall k :: 0 <= k < |ps| ==> m(ps[k]) <= maxWidth
    ensures var lines := WrapParagraphs(m, maxWidth, ps);
      && |lines| == |ps|
      && forall k :: 0 <= k < |ps| ==> lines[k] == Unwrapped(ps[k])
  {
    if |ps| > 0 {
      WrapParagraphsNoWrap(m, maxWidth, ps[1..]);
      NoWrapStep(m, maxWidth, ps);
    }
    assert LinesUnwrapped(WrapParagraphs(m, maxWidth, ps), ps);
  }

  /** Each line is its paragraph, unwrapped. */
  ghost predicate LinesUnwrapped(lines: seq<string>, ps: seq<string>) {
    |lines| == |ps| && forall k :: 0 <= k < |ps| ==> lines[k] == Unwrapped(ps[k])
  }

  /** A fitting first paragraph adds its unwrapped line in front of the
      others'. */
  lemma NoWrapStep(m: Measurer, maxWidth: real, ps: seq<string>)
    requires |ps| > 0 && m(ps[0]) <= maxWidth
    requires LinesUnwrapped(WrapParagraphs(m, maxWidth, ps[1..]), ps[1..])
    ensures LinesUnwrapped(WrapParagraphs(m, maxWidth, ps), ps)
  {
    var tail := WrapParagraphs(m, maxWidth, ps[1..]);
    WrapFittingParagraph(m, maxWidth, ps[0]);
    assert WrapParagraphs(m, maxWidth, ps) == [Unwrapped(ps[0])] + tail;
    ConsImage(tail, ps, Unwrapped);
  }

  /** Putting the image of the first entry in front of the images of the
      others gives the images of all. */
  lemma ConsImage(tail: seq<string>, ps: seq<string>, f: string -> string)
    requires |ps| > 0 && |tail| == |ps| - 1
    requires forall k :: 0 <= k < |tail| ==> tail[k] == f(ps[1..][k])
    ensures forall k :: 0 <= k < |ps| ==> ([f(ps[0])] + tail)[k] == f(ps[k])
  {
    forall k | 1 <= k < |ps|
      ensures ([f(ps[0])] + tail)[k] == f(ps[k])
    {
      assert ps[1..][k - 1] == ps[k];
    }
  }
}
